=== FILE: README.md ===
# Galactica combat tick and sector-map arithmetic, in Dafny

This project models the combat core of the Galactica space shooter. The
per-frame `update` of `components/GameEngine.tsx` is the centre of it. Each
tick moves the ship and the COMET boss, fires the held weapons and resolves
every projectile. It then runs the spawner, moves every enemy, collects
power-ups and regenerates the shield. Last come the two end-of-mission checks.
The model also covers the pure arithmetic of the sector map in `App.tsx`:

- the scroll-slider conversions;
- the zoom buttons;
- the intro and focus ease-out animations;
- the orbit speed factor and the moon speed multiplier;
- the credits the host pays when a mission ends.

The engine's mutable `stateRef` record becomes the immutable `World.State`.
A tick is the function `Engine.Tick` from one state to the next. Its flag
`keepShots` chooses the enemy pass: `false` is the program as written, which
drops every bomber shot (see "## Findings"), and `true` is the corrected
tick that keeps them. Every lemma about a tick holds for both values, and
`Engine.CorrectionAddsShotsOnly` shows that the two ticks differ only in
those shots. The host
supplies each tick's inputs in a `World.TickInput`:

- the held keys and the clock;
- whether the abort dialog is open;
- the random draws of a spawn;
- the drop rolls of each kill, indexed by kill ordinal;
- the sine function.

The `onGameOver` callback becomes an event log in the state. The log records
each `MissionEnd(success)` in the order it is reported, and also the "denied"
sound of an empty rack. The source splices arrays while walking them from
back to front. Here each such walk is a recursive pass over the
not-yet-visited prefix, which puts every survivor in front of the list it
returns, so survivors keep their order.

Modules follow the engine's components:

- `Geometry`: the field, bounds and distances;
- `Loadout`: configuration, trigger keys and quota;
- `Entities`: bullets, enemies, power-ups and the boss;
- `World`: the record and the callback;
- `Shields`: damage and regeneration;
- `Motion`: the ship;
- `Firing`: weapons;
- `Projectiles`: the bullet pass;
- `Hostiles`: the spawner and the enemy pass;
- `Pickups`: the power-up pass;
- `Engine`: the tick, its invariant and its outcome;
- `Guidance`: missile steering;
- `MapView`: the sector-map arithmetic;
- `Scenarios`: concrete situations.

## Model

| member | source | states |
|---|---|---|
| `Geometry.InsideCentredBox` | components/GameEngine.tsx:52 | a point lies strictly inside an entity's bounds exactly when it is closer than half the width and half the height to the entity's centre |
| `Loadout.TriggersShared` | components/GameEngine.tsx:238-243 | guns and lasers share a trigger (space or 1); missiles (2 or x) and mines (3 or m) each have their own, and any two different trigger sets are disjoint |
| `Loadout.ShieldCapacity` | components/GameEngine.tsx:171 | the shield starts at, and is capped by, the fitted shield's capacity, or 0 with no shield |
| `Loadout.TotalToKill` | components/GameEngine.tsx:174 | an ATTACK mission needs 20 kills per difficulty point; any other mission needs 40; the quota is positive for a positive difficulty |
| `Entities.Advance` | components/GameEngine.tsx:81-82 | a bullet moves by exactly its velocity and nothing else about it changes |
| `Entities.KindOf` | components/GameEngine.tsx:99-100 | a spawn on COMET is a rock and only there; otherwise the draw picks scout, interceptor or bomber by thirds |
| `Entities.NewEnemy` | components/GameEngine.tsx:98-107 | a new enemy has full hit points of 80/60/30/20 per difficulty point by kind; it is square, 40 to 80 wide for a rock and 45 or 30 otherwise; it falls at 2 to 4.5 for a rock, 1 for a bomber, 3.5 for an interceptor and 2.5 for a scout; its fire timer is in [0, 100) and its spin in [-0.02, 0.02) |
| `Entities.UpdateEnemy` | components/GameEngine.tsx:121-138 | every enemy falls by its own speed; a rock turns by its spin and an interceptor weaves around its spawn column; a bomber counts its timer up and, once past 120, resets it and fires one 10-damage hostile shot from where it was; no other field changes, and a timer in [0, 120] stays there |
| `Entities.WeaveBounded` | components/GameEngine.tsx:126 | with a sine in [-1, 1], an interceptor never strays more than 60 from its spawn column |
| `Entities.BomberFiresAfterCount` | components/GameEngine.tsx:127-134 | a bomber whose timer is 120 - n stays silent for n ticks and fires on tick n + 1 |
| `Entities.NewPowerUp` | components/GameEngine.tsx:35-43 | a power-up starts where it was dropped; a gift falls at 1 and the others at 1.5 |
| `Entities.Drift` | components/GameEngine.tsx:44 | a power-up moves down by exactly its fall speed |
| `Entities.NewBoss` | components/GameEngine.tsx:181 | the COMET boss starts centred at y = -150, 72 by 72, with 8000 hit points per difficulty point |
| `Entities.Descend` | components/GameEngine.tsx:299-300 | the boss descends 0.4 per tick while above the hover line at 160 and then holds; from at or above the line it never passes 160.4 |
| `World.TriggerGameOver` | components/GameEngine.tsx:207-211 | the mission-end callback sets the game-over flag and reports its outcome once per call; nothing else changes |
| `Shields.DamagePlayer` | components/GameEngine.tsx:383-394 | damage comes off shield plus hull exactly; a charged shield absorbs it and any overflow comes off the hull while the shield rests at 0; with no charge all of it comes off the hull; non-negative damage never raises either |
| `Shields.Regen` | components/GameEngine.tsx:377 | a fitted shield below capacity gains a sixtieth of its regeneration rate per tick, and becomes exactly the capacity when that step would pass it; otherwise the charge is unchanged |
| `Shields.ChargeStaysInRange` | components/GameEngine.tsx:377-394 | a hit followed by regeneration keeps the charge in [0, capacity] |
| `Motion.Thrust` | components/GameEngine.tsx:283-291 | opposite keys cancel; a single held key changes velocity by 0.55 in its direction |
| `Motion.Integrate` | components/GameEngine.tsx:280-297 | velocity is the thrust-adjusted velocity times the 0.92 drag; the ship always ends within 35 of the sides and the bottom and 60 of the top; it moves by exactly its velocity whenever that lands inside |
| `Motion.CoastingSlowsDown` | components/GameEngine.tsx:293 | with no key held, speed on each axis shrinks by the drag factor |
| `Firing.GateAsRate` | components/GameEngine.tsx:245-246 | a weapon may fire again exactly when the time since its last shot, times its fire rate, exceeds 1000 ms |
| `Firing.Volley` | components/GameEngine.tsx:262-270 | a shot releases one bullet for an ammo weapon and one per barrel otherwise; bullets leave 20 above the ship straight up at 12 with the weapon's damage; a lone barrel fires from the centre and a multi-barrel volley fires its first bullet at -12 and the rest at +12 |
| `Firing.FireWeapon` | components/GameEngine.tsx:238-272 | untriggered or within its gate, nothing happens; triggered with an empty rack, only the denial is reported and the gate is not consumed; otherwise the gate restarts at `now`, the volley is appended and an ammo weapon spends exactly one round; no other weapon's gate or counter moves and counters stay non-negative |
| `Firing.FireWeapons` | components/GameEngine.tsx:232-274 | the firing phase only appends: player bullets after the existing ones and denial events after the existing log; the set of ammo counters is unchanged |
| `Firing.FireWeaponsSafe` | components/GameEngine.tsx:232-274 | the firing phase keeps every counter non-negative and, with non-negative weapon damage, every bullet's damage non-negative |
| `Projectiles.LastHit` | components/GameEngine.tsx:329-342 | a player bullet strikes the highest-index enemy whose box holds it, and strikes none exactly when no box holds it |
| `Projectiles.Drop` | components/GameEngine.tsx:336 | a kill drops a power-up exactly when its first draw exceeds 0.85, at the enemy's position, falling at 1.5, never a gift, and a repair pack exactly when the second draw exceeds 0.5 (an ammo pack otherwise) |
| `Projectiles.StrikeBoss` | components/GameEngine.tsx:313-327 | the boss loses the bullet's damage; at or below 0 a gift appears at the boss and success is reported, on every such hit |
| `Projectiles.StrikeEnemy` | components/GameEngine.tsx:329-341 | only the enemies, score, progress and power-ups change; a surviving enemy loses exactly the bullet's damage and every other enemy is untouched; a kill removes exactly that enemy, keeps the others in order, adds 200 points and one unit of progress, and appends the kill's drop |
| `Projectiles.Resolve` | components/GameEngine.tsx:307-345 | a bullet survives exactly when it is within 100 of the field and meets nothing, and is otherwise spent; a hostile shot that reaches the ship applies `DamagePlayer` for its damage (shield first, overflow to the hull) and touches nothing else; a player bullet never touches the player; it strikes the boss before any enemy, and a lethal boss hit reports success; otherwise it strikes the last enemy holding it, which loses the damage and is killed exactly when that takes it to 0 or below; only a boss hit changes the boss |
| `Projectiles.StrikeEnemyKeeps` | components/GameEngine.tsx:329-341 | a strike on an enemy changes only the enemies, score, progress and power-ups; a kill removes exactly one enemy for one unit of progress and 200 points |
| `Projectiles.ResolveKeeps` | components/GameEngine.tsx:306-346 | one bullet scores 200 per kill, removes an enemy per kill, adds at most one kill, leaves the ship's motion and the weapon ledger alone, and survives only while in flight |
| `Projectiles.ResolveSafe` | components/GameEngine.tsx:306-346 | one bullet keeps bomber timers in range and the shield non-negative, and a harmless bullet never heals the player |
| `Projectiles.ResolveReports` | components/GameEngine.tsx:313-327 | one bullet only appends success events, sets the flag exactly then, which needs the boss at or below 0, and changes the boss by its hit points alone |
| `Projectiles.BulletPassKeeps` | components/GameEngine.tsx:306-346 | the whole bullet pass keeps that accounting over all bullets: survivors are in flight, kills equal score/200, and the player is only damaged |
| `Projectiles.BulletPassReports` | components/GameEngine.tsx:306-346 | the whole bullet pass only appends successes and sets the flag exactly when it reports one, which with harmless shots needs a boss at or below 0 |
| `Projectiles.BulletPassBossKill` | components/GameEngine.tsx:306-327 | a bullet pass that changes the boss and leaves it at or below 0 has reported success |
| `Projectiles.BulletPassSurvivors` | components/GameEngine.tsx:306-346 | the bullet pass keeps only the bullets it started with and the moved pending ones, each at most once |
| `Projectiles.ProjectilePhase` | components/GameEngine.tsx:306-346 | over the whole bullet list, every survivor is one of the moved bullets, each kept at most once, and survivors are in flight; kills equal score/200 and progress, each bullet kills at most once, each kill removes one enemy; with harmless shots the player is only damaged |
| `Hostiles.Spawn` | components/GameEngine.tsx:220-230 | no spawn once the boss is below the top edge or before the interval (400 ms on COMET, 1200/(0.8 difficulty) otherwise); when due, exactly one enemy is appended at y = -100 and x in [20, 580), a rock exactly on COMET, and the clock restarts |
| `Hostiles.ContactRadius` | components/GameEngine.tsx:352 | a rock rams within half its width plus 5, any other enemy within 45 |
| `Hostiles.ContactDamage` | components/GameEngine.tsx:356 | a ram deals 40 for a rock and 30 otherwise |
| `Hostiles.StepEnemy` | components/GameEngine.tsx:349-357 | only the enemies, bullets, hull and shield change; the fired shot is added exactly when shots are kept; the enemy stays exactly when it is at most 100 below the field and out of ramming range; a ram applies `DamagePlayer` for the contact damage (shield first, overflow to the hull), and otherwise the player is untouched |
| `Hostiles.StepEnemyKeeps` | components/GameEngine.tsx:349-357 | one enemy's turn keeps the score, progress and ledger, keeps or drops only that enemy, adds at most the one shot it fired, and only damages the player |
| `Hostiles.EnemyPassKeeps` | components/GameEngine.tsx:349-358 | the enemy pass never scores or changes progress, only damages the player, keeps bomber timers in [0, 120], and keeps only in-field non-ramming enemies |
| `Hostiles.HostilePhase` | components/GameEngine.tsx:349-358 | the enemy phase changes only enemies, bullets, hull and shield; it leaves only in-field enemies clear of the ship; as written the bullets are unchanged and corrected they gain exactly the fired shots |
| `Hostiles.ShotsOnlyInBullets` | components/GameEngine.tsx:349-358 | keeping or dropping the shots, and the starting bullets, change only the bullets the enemy pass leaves |
| `Hostiles.FiredShotsHostile` | components/GameEngine.tsx:131 | every shot an enemy fires is a hostile 10-damage bullet |
| `Hostiles.ShotsKept` | components/GameEngine.tsx:349-358 | the corrected enemy pass appends exactly the shots the enemies fire, in visiting order; as written it appends none |
| `Hostiles.BomberShotDropped` | components/GameEngine.tsx:350 | a bomber at timer 120 fires, yet the pass as written leaves the bullets unchanged; the corrected pass adds the shot |
| `Pickups.Refill` | components/GameEngine.tsx:365-367 | every ammo counter rises by the same amount and no counter appears or disappears |
| `Pickups.Collect` | components/GameEngine.tsx:364-370 | a repair pack adds 25 hull capped at 100; an ammo pack adds 20 to every counter; the gift adds 100 to every counter and 5000 points |
| `Pickups.StepPickup` | components/GameEngine.tsx:360-374 | a power-up within 35 of the ship after drifting applies its effect and is spent; otherwise nothing else changes and it is kept exactly when it has not fallen below the field |
| `Pickups.PickupPassKeeps` | components/GameEngine.tsx:360-374 | the pickup pass keeps the hull at or below 100 when it started there, counters non-negative and keys unchanged, never lowers the score, and keeps only uncollected in-field power-ups |
| `Pickups.PickupPassSurvivors` | components/GameEngine.tsx:360-374 | the pickup pass keeps only the power-ups it started with and the drifted pending ones, each at most once |
| `Pickups.StepPickupKeeps` | components/GameEngine.tsx:360-374 | one power-up's turn changes only hull, counters, score and power-ups, never lowers the score or a counter below 0, and keeps the hull at or below 100 |
| `Pickups.PickupPhase` | components/GameEngine.tsx:360-374 | over the whole power-up list, every power-up kept is one of the drifted ones, each at most once, and is on the field and out of reach; the hull is repaired only up to 100 and the score never drops |
| `Pickups.PickupsIgnoreBullets` | components/GameEngine.tsx:360-374 | the pickup pass neither reads nor changes the bullets |
| `Engine.InitialAmmo` | components/GameEngine.tsx:188-190 | every ammo weapon's id has a counter, only those ids do, and counters start non-negative when loadout counts are |
| `Engine.InitialAmmoCounts` | components/GameEngine.tsx:189 | an ammo weapon's counter starts at its loadout count unless a later ammo weapon with the same id overwrites it |
| `Engine.Init` | components/GameEngine.tsx:155-190 | the mission starts with the ship at (300, 540) at rest, full hull and shield, empty lists, no progress or score, the quota set, a boss exactly on COMET, the loadout's ammo counters, no weapon fired yet and the spawn clock at 0 |
| `Engine.BossPhase` | components/GameEngine.tsx:299-303 | the boss, if any, descends and nothing else changes |
| `Engine.EndChecks` | components/GameEngine.tsx:379-380 | a met quota on a non-COMET mission reports success, then a hull at or below 0 reports failure; both can fire; the flag is set exactly when either holds |
| `Engine.Tick` | components/GameEngine.tsx:276-277 | while game over or with the abort dialog open, a tick changes nothing, whether shots are kept or not |
| `Engine.ConfirmAbort` | components/GameEngine.tsx:503 | confirming the abort reports failure, sets the flag, and every later tick leaves the record alone |
| `Engine.InitEstablishes` | components/GameEngine.tsx:155-190 | the initial record satisfies the tick invariant for every well-formed loadout |
| `Engine.PlayKeepsInv` | components/GameEngine.tsx:276-378 | the gameplay phases, as written and corrected, keep the ship in the field, the hull at or below 100, the shield charge in [0, capacity], counters tracked and non-negative, player shots harmless to the player and bomber timers in [0, 120] |
| `Engine.PlayReports` | components/GameEngine.tsx:276-378 | the gameplay phases, as written and corrected, only append to the log, never report failure, and set the flag exactly when they report success, which only a boss at or below 0 causes |
| `Engine.PlayReportsKill` | components/GameEngine.tsx:276-378 | the gameplay phases, as written and corrected, keep the boss present exactly when it was, and report success whenever they bring it from above 0 to at or below 0 |
| `Engine.TickPreservesInv` | components/GameEngine.tsx:276-381 | every tick, as written and corrected, keeps the invariant |
| `Engine.EndReports` | components/GameEngine.tsx:379-380 | after phases that report no failure, the end checks report failure exactly for a hull at or below 0, success only for a met quota or a destroyed boss and always for a met quota |
| `Engine.TickOutcome` | components/GameEngine.tsx:276-381 | a tick, as written and corrected, reports failure exactly when the hull ends at or below 0; it reports success only for a met quota or a destroyed boss, always for a met quota, and always when it brings the boss from above 0 to at or below 0; the flag is set exactly when something was reported |
| `Engine.TickMayReportTwice` | components/GameEngine.tsx:379-380 | a tick, as written or corrected, that ends with the quota met and the hull gone reports both success and failure |
| `Engine.TickExtendsLog` | components/GameEngine.tsx:207-211 | a tick, as written or corrected, never rewrites or drops an earlier report |
| `Engine.LaterPhasesKeepShotsApart` | components/GameEngine.tsx:349-377 | from the enemy pass on, the corrected phases end with the as-written record plus the fired shots after its bullets |
| `Engine.CorrectionAddsShotsOnly` | components/GameEngine.tsx:276-381 | the corrected tick differs from the tick as written only by hostile shots appended after its bullets |
| `Engine.Run` | components/GameEngine.tsx:276-381 | any sequence of frames, as written or corrected, keeps the invariant and only appends to the log, and a finished mission stays as it is |
| `Guidance.RaiseAbove` | components/GameEngine.tsx:75 | the first wrap loop ends at or above -pi, below pi when it ran at all, after adding whole turns |
| `Guidance.LowerBelow` | components/GameEngine.tsx:76 | the second wrap loop ends at or below pi, not below -pi when it started there, after removing whole turns |
| `Guidance.Wrap` | components/GameEngine.tsx:74-76 | the heading error ends in [-pi, pi], differs from the raw difference by whole turns, and is untouched when already there |
| `Guidance.WrapCanonical` | components/GameEngine.tsx:74-76 | angles in (-pi, pi) that differ by whole turns wrap to the same value |
| `Guidance.Steer` | components/GameEngine.tsx:72-77 | a missile with a live target turns by at most 0.12 pi per tick; without one its heading is unchanged |
| `Guidance.ErrorShrinks` | components/GameEngine.tsx:72-77 | against a target that holds its bearing, each tick leaves exactly 88% of the wrapped heading error, so the error strictly shrinks until it is zero |
| `MapView.SliderRoundTrip` | App.tsx:368-370 | slider position and camera offset are inverse conversions; the offset range [-1000, 1000] maps onto the slider range [0, 100], monotonically |
| `MapView.ZoomIn` | App.tsx:484 | the + button adds 0.2, and gives exactly 4 when that would pass 4 |
| `MapView.ZoomOut` | App.tsx:484 | the - button takes 0.2 away, and gives exactly 0.005 when that would go below it |
| `MapView.ZoomStaysInRange` | App.tsx:484 | both buttons keep a zoom in [0.005, 4] in that range |
| `MapView.Progress` | App.tsx:330 | animation progress never exceeds 1, is non-negative for non-negative elapsed time, and is 1 once the duration has passed |
| `MapView.CubicBounds` | App.tsx:331 | on [0, 1] the cubic ease-out of the intro stays in [0, 1] and never runs behind linear progress |
| `MapView.QuartBounds` | App.tsx:357 | on [0, 1] the quartic ease-out of the focus animation stays in [0, 1] and never runs behind linear progress |
| `MapView.EaseMonotone` | App.tsx:331 | the cubic ease-out is monotone |
| `MapView.Lerp` | App.tsx:332 | the eased value starts at the start, ends at the target, and stays between the two for a weight in [0, 1] |
| `MapView.IntroFrame` | App.tsx:322-335 | intro zoom stays in [0.0625, 0.15625] and the offset in [0, 100] by [0, 50]; it starts at (0.0625, 100, 50), finishes at (0.15625, 0, 0), and schedules another frame exactly while under 3 s |
| `MapView.FocusZoom` | App.tsx:355 | the focus zoom is 60/(25 size), capped at 2.5, which is reached exactly for sizes up to 0.96 |
| `MapView.FocusWeight` | App.tsx:357 | the focus animation's quartic weight is in [0, 1], 0 at the start and 1 from 1 s on |
| `MapView.FocusFrame` | App.tsx:353-358 | the focus animation starts at the current camera, ends at the target zoom centred on the body, and keeps the zoom between the two throughout |
| `MapView.RangeOf` | App.tsx:303 | the radius range is the smallest and largest orbit radius of the quadrant's planets, or 1..1000 with none |
| `MapView.OrbitSpeedBounds` | App.tsx:343-349 | each planet's distance factor is in [0, 1] and its speed multiplier in [1, 1.5]; the innermost orbit gets 1.5, the outermost 1 when radii differ, and an inner planet never orbits slower than an outer one |
| `MapView.MoonSpeed` | App.tsx:455-459 | the first, second and third moons move at 0.5, 0.2 and 0 times the base speed, and every later moon at full speed |
| `MapView.Reward` | App.tsx:267 | a won mission pays 10000 credits and a lost one 2500 |
| `MapView.Settle` | App.tsx:267 | each mission-end report pays between 2500 and 10000 credits |
| `MapView.SettleAppend` | App.tsx:267 | handling one more report adds exactly its reward: 10000 for a success, 2500 for a failure |
| `MapView.DoubleReportPaysTwice` | App.tsx:267 | a tick that reports both outcomes pays 12500 credits |
| `Scenarios.RaidRackEmpty` | components/GameEngine.tsx:188-190 | a loadout with an empty missile rack starts with that rack's counter at 0 |
| `Scenarios.ShieldBreaks` | components/GameEngine.tsx:386-389 | a 40-point shield hit for 55 breaks to 0 and the hull loses 15 |
| `Scenarios.EmptyRackDenied` | components/GameEngine.tsx:245-251 | pressing 2 on an empty rack with the gate open reports the denial and changes no bullet, counter or gate |
| `Scenarios.FinalBlowOnBoss` | components/GameEngine.tsx:313-325 | a 35-damage missile into a boss with 20 left leaves it at -15, drops a gift at the boss and reports success |
| `Scenarios.QuotaEndsRaid` | components/GameEngine.tsx:379 | the twentieth kill at difficulty 1 ends an ATTACK mission in success, and later ticks change nothing |
| `Scenarios.BothEndsPaid` | components/GameEngine.tsx:379-380 | quota and hull failing in the same tick report success then failure, and the host pays both rewards |

## Left out

- Drawing, the canvas, React state mirrors (`setPlayerHp`, `setBossHp`, `setAmmoCounts`) and the HUD are presentation only.
- The score lives only in React state (components/GameEngine.tsx:144) and is only displayed. It is modelled as `World.State.score`, and each functional update `setScore(s => s + n)` (components/GameEngine.tsx:335, :369) is applied at once, not batched to the next render.
- Audio is omitted except the "denied" sound of an empty rack, which appears in the log as `Denied(id)`.
- Particles, stars, terrain and the shield and boss flash counters only feed drawing.
- Keyboard listeners are not modelled; a tick receives the set of held keys directly. The Escape toggle is modelled only as the abort-dialog flag each tick receives.
- `Date.now()` is read twice per tick, in `spawnEnemy` and in `fireWeapons`. The model uses one `now` for both.
- `Math.random`, `Math.sin`, `Math.atan2`, `Math.cos` and `Math.hypot` are inputs or are replaced by exact comparisons. The spawn draws are tick inputs required to lie in [0, 1). The drop draws are any reals: no contract needs their range. `hypot(dx, dy) < r` is stated as `dx*dx + dy*dy < r*r` with `r > 0`.
- Floating-point rounding is not modelled: all arithmetic is on exact reals. `Math.pow(1 - p, 3)` and `Math.pow(1 - p, 4)` are exact products.
- Player bullets never get a target: the engine constructs them without one. Missile homing therefore never runs inside a tick, and `Guidance` models the steering rule on its own. The bearing is an input, and the velocity rebuilt from the heading by `cos` and `sin` is not modelled.
- `Enemy.update` takes the bullet list and the player position as arguments that it does not use for anything modelled. `Bullet.update` takes no arguments.
- Engine.Tick: every proof about a whole tick requires that each ammo weapon's id has a counter. The engine sets those counters when it starts (components/GameEngine.tsx:188-190), so the requirement holds for every record that `Engine.Init` produces.
- Engine.Play: requires `WellFormed` (non-negative damage, shield figures and starting ammo) for the invariant proofs; the catalogue rows in `Loadout` meet it.
- Engine.EndChecks: the mission-end callback is not guarded against repeats, so the model follows the code and can report an outcome more than once. Both end checks can fire in the same tick. A boss at or below 0 reports success again on every further hit in the same pass. `triggerGameOver` (components/GameEngine.tsx:207-211) sets `gameOver` but never checks it before calling `onGameOver`.
- Hostiles.Spawn: follows the code, which stops spawning once the boss is below the top edge (`boss.y > 0`). It does not wait for the boss to reach its hover line.
- `App.tsx` passes an empty weapon list, no shield and difficulty 5 to the engine (App.tsx:267). The model instead takes any loadout, which covers that one.
- MapView.FocusFrame: the body's position comes from the orbit data as an input. The follow-up frame scheduling is not modelled.
- Mouse dragging, wheel zoom, the docking timers and the planet and moon angles (`cos`/`sin` of time) in `App.tsx` are left out; only the arithmetic listed above is modelled.
- types.ts and the audio service are not part of this model. From constants.ts only the weapon and shield catalogue (constants.ts:72-80) is modelled, as `Loadout.AutoCannon`, `RubyBeam`, `StalkerMissile`, `StaticMine`, `PlasmaSkin` and `AegisCore`. The mission kinds are ATTACK, COMET and `OtherMission`, which stands for every other kind; the engine treats those like ATTACK except for their kill quota.

## Findings

| source | as written | input that shows it | evidently intended | confidence | as-written member | corrected member |
|---|---|---|---|---|---|---|
| components/GameEngine.tsx:350 | the enemy pass calls `e.update(...)` and ignores its return value, so a bomber's fired bullet (made at line 131, with its firing sound) never enters `state.bullets` | a bomber at (300, 100) whose fire timer is 120, with the ship at (300, 540): its timer resets to 0 and the sound plays, but the bullet list is unchanged | the returned shot is pushed onto `state.bullets`, so bombers can hit the player | not executed | `Hostiles.BomberShotDropped` | `Hostiles.ShotsKept` |

`Engine.Tick` and `Engine.Play` take a flag `keepShots`: `false` is the tick as written and `true` the corrected one.
Every lemma about a tick is stated for both. `Engine.CorrectionAddsShotsOnly` shows that the corrected tick only appends the dropped shots.

=== FILE: engine.dfy ===
/** The frame loop's update: one tick of the combat simulation, in the
    source's fixed order, gated on the game-over flag and the abort dialog;
    the mission's initial state; and the invariant every tick preserves. */
module Engine {
  import opened Options
  import opened Geometry
  import opened Loadout
  import opened Entities
  import opened World
  import opened Shields
  import opened Motion
  import opened Firing
  import opened Projectiles
  import opened Hostiles
  import opened Pickups

  /** Ammo counters at mission start: one per ammo-based weapon, holding its
      loadout count (a later weapon with the same id overwrites an earlier one). */
  function InitialAmmo(ws: seq<Weapon>): (m: map<string, int>)
    ensures AmmoTracked(ws, m)
    ensures forall id :: id in m ==> exists i :: 0 <= i < |ws| && ws[i].isAmmoBased && ws[i].id == id
    ensures (forall i :: 0 <= i < |ws| && ws[i].isAmmoBased ==> ws[i].count >= 0) ==> AmmoNonNegative(m)
    decreases |ws|
  {
    if |ws| == 0 then map[]
    else
      var m := InitialAmmo(ws[..|ws| - 1]);
      var w := ws[|ws| - 1];
      if w.isAmmoBased then m[w.id := w.count] else m
  }

  /** Each ammo-based weapon's counter starts at its loadout count, unless a
      later ammo-based weapon with the same id overwrites it. */
  lemma {:induction false} InitialAmmoCounts(ws: seq<Weapon>, i: nat)
    requires i < |ws| && ws[i].isAmmoBased
    requires forall j :: i < j < |ws| && ws[j].isAmmoBased ==> ws[j].id != ws[i].id
    ensures ws[i].id in InitialAmmo(ws) && InitialAmmo(ws)[ws[i].id] == ws[i].count
    decreases |ws|
  {
    var init := ws[..|ws| - 1];
    if i < |ws| - 1 {
      assert init[i] == ws[i];
      InitialAmmoCounts(init, i);
    }
  }

  /** The mission's starting record: the ship low in the middle at rest,
      full hull, full shield, an empty field, and the boss above the field on COMET. */
  function Init(cfg: Config): (s: State)
    ensures s.px == 300.0 && s.py == 540.0 && s.pvx == 0.0 && s.pvy == 0.0
    ensures s.hp == 100.0 && s.sh == s.maxSh == ShieldCapacity(cfg)
    ensures s.bullets == [] && s.enemies == [] && s.powerups == []
    ensures !s.gameOver && s.progress == 0 && s.score == 0 && s.log == []
    ensures s.boss.Some? <==> cfg.mission == Comet
    ensures s.boss.Some? ==> s.boss.value == NewBoss(cfg.difficulty)
    ensures s.totalToKill == TotalToKill(cfg.mission, cfg.difficulty)
    ensures s.ammo == InitialAmmo(cfg.weapons) && s.lastFire == map[] && s.lastEnemy == 0.0
  {
    State(GameWidth / 2.0, GameHeight - 100.0, 0.0, 0.0,
          [], [], [],
          map[], InitialAmmo(cfg.weapons),
          0.0, false,
          100.0, ShieldCapacity(cfg), ShieldCapacity(cfg),
          0, TotalToKill(cfg.mission, cfg.difficulty),
          if cfg.mission == Comet then Some(NewBoss(cfg.difficulty)) else None,
          0, [])
  }

  function BossPhase(s: State): (t: State)
    ensures t == s.(boss := t.boss)
    ensures t.boss.Some? <==> s.boss.Some?
    ensures t.boss.Some? ==> t.boss.value == Descend(s.boss.value)
  {
    if s.boss.Some? then s.(boss := Some(Descend(s.boss.value))) else s
  }

  /** The end-of-tick checks: quota reached on a non-COMET mission, then
      hull at or below zero; both may fire in the same tick. */
  function EndChecks(cfg: Config, s: State): (t: State)
    ensures t == s.(gameOver := t.gameOver, log := t.log)
    ensures var quota := cfg.mission != Comet && s.progress as real >= s.totalToKill;
      t.log == s.log + (if quota then [MissionEnd(true)] else []) + (if s.hp <= 0.0 then [MissionEnd(false)] else [])
    ensures t.gameOver <==> s.gameOver || (cfg.mission != Comet && s.progress as real >= s.totalToKill) || s.hp <= 0.0
  {
    var s1 := if cfg.mission != Comet && s.progress as real >= s.totalToKill then TriggerGameOver(s, true) else s;
    if s1.hp <= 0.0 then TriggerGameOver(s1, false) else s1
  }

  /** The gameplay phases of a tick, in the source's order: motion, boss
      descent, firing, projectiles, spawner, enemies, pickups, shield
      regeneration. `keepShots` false is the program as written, whose enemy
      pass drops every bomber shot; true is the corrected tick that keeps them. */
  function Play(cfg: Config, s: State, inp: TickInput, keepShots: bool): State
    requires AmmoTracked(cfg.weapons, s.ammo)
    requires ValidRolls(inp.spawn)
  {
    var s1 := Integrate(s, inp.held);
    var s2 := BossPhase(s1);
    var s3 := FireWeapons(cfg.weapons, s2, inp.held, inp.now);
    var s4 := ProjectilePhase(s3, inp.drops);
    var s5 := Spawn(cfg, s4, inp.now, inp.spawn);
    var s6 := HostilePhase(s5, inp.sin, keepShots);
    var s7 := PickupPhase(s6);
    Regen(cfg.shield, s7)
  }

  /** One call of the frame loop's update: nothing at all once the game is
      over or while the abort dialog is open. */
  function Tick(cfg: Config, s: State, inp: TickInput, keepShots: bool): (t: State)
    requires AmmoTracked(cfg.weapons, s.ammo)
    requires ValidRolls(inp.spawn)
    ensures s.gameOver || inp.abortOpen ==> t == s
  {
    if s.gameOver || inp.abortOpen then s else EndChecks(cfg, Play(cfg, s, inp, keepShots))
  }

  /** The abort dialog's confirm button: the mission ends in failure and no
      later tick changes the record. */
  function ConfirmAbort(cfg: Config, s: State): (t: State)
    ensures t.gameOver && t.log == s.log + [MissionEnd(false)]
    ensures t == s.(gameOver := true, log := t.log)
    ensures forall inp: TickInput | AmmoTracked(cfg.weapons, t.ammo) && ValidRolls(inp.spawn) :: Tick(cfg, t, inp, false) == t && Tick(cfg, t, inp, true) == t
  {
    TriggerGameOver(s, false)
  }

  /** What holds of the record between ticks. */
  predicate Inv(cfg: Config, s: State)
  {
    && InField(s)
    && s.hp <= 100.0
    && s.maxSh == ShieldCapacity(cfg) && 0.0 <= s.sh <= s.maxSh
    && AmmoTracked(cfg.weapons, s.ammo) && AmmoNonNegative(s.ammo)
    && ShotsHarmless(s.bullets)
    && TimersInRange(s.enemies)
    && s.totalToKill == TotalToKill(cfg.mission, cfg.difficulty)
  }

  lemma InitEstablishes(cfg: Config)
    requires WellFormed(cfg)
    ensures Inv(cfg, Init(cfg))
  {
  }

  /** A success event appears after log index n. */
  predicate Reported(log: seq<Event>, n: nat, success: bool)
  {
    exists i :: n <= i < |log| && log[i] == MissionEnd(success)
  }

  /** The log across the firing phase (denials only) and the projectile
      phase (successes only, exactly when the flag gets set). */
  lemma {:induction false} PhaseLogs(l0: seq<Event>, l3: seq<Event>, l4: seq<Event>, over: bool)
    requires |l0| <= |l3| && l3[..|l0|] == l0 && forall i :: |l0| <= i < |l3| ==> l3[i].Denied?
    requires |l3| <= |l4| && l4[..|l3|] == l3 && OnlySuccessAfter(l4, |l3|)
    requires over <==> |l4| > |l3|
    ensures |l0| <= |l4| && l4[..|l0|] == l0
    ensures forall i :: |l0| <= i < |l4| ==> l4[i] != MissionEnd(false)
    ensures over <==> Reported(l4, |l0|, true)
  {
    assert l4[..|l0|] == l4[..|l3|][..|l0|];
    forall i | |l0| <= i < |l4|
      ensures l4[i] != MissionEnd(false)
    {
      if i < |l3| {
        assert l4[i] == l4[..|l3|][i];
      }
    }
    if Reported(l4, |l0|, true) {
      var i :| |l0| <= i < |l4| && l4[i] == MissionEnd(true);
    }
    if over {
      assert l4[|l3|] == MissionEnd(true);
    }
  }

  /** The gameplay phases keep the invariant. */
  lemma PlayKeepsInv(cfg: Config, s: State, inp: TickInput, keepShots: bool)
    requires WellFormed(cfg) && Inv(cfg, s) && ValidRolls(inp.spawn)
    ensures Inv(cfg, Play(cfg, s, inp, keepShots))
  {
    var s1 := Integrate(s, inp.held);
    var s2 := BossPhase(s1);
    var s3 := FireWeapons(cfg.weapons, s2, inp.held, inp.now);
    var s4 := ProjectilePhase(s3, inp.drops);
    var s5 := Spawn(cfg, s4, inp.now, inp.spawn);
    var s6 := HostilePhase(s5, inp.sin, keepShots);
    var s7 := PickupPhase(s6);
    var s8 := Regen(cfg.shield, s7);
    assert s8 == Play(cfg, s, inp, keepShots);
    assert Armed(cfg.weapons);
    FireWeaponsSafe(cfg.weapons, s2, inp.held, inp.now);
    BulletPassKeeps(s3.bullets, s3.(bullets := []), inp.drops);
    PickupPassKeeps(s6.powerups, s6.(powerups := []));
    FiredShotsHostile(s5.enemies, inp.sin);
    assert ShotsHarmless(s6.bullets);
    assert AmmoTracked(cfg.weapons, s8.ammo);
  }

  /** The gameplay phases only append to the log, never report a failure,
      and set the flag exactly when they report a success, which only a boss
      at or below zero causes. */
  lemma PlayReports(cfg: Config, s: State, inp: TickInput, keepShots: bool)
    requires WellFormed(cfg) && Inv(cfg, s) && ValidRolls(inp.spawn)
    requires !s.gameOver
    ensures var p := Play(cfg, s, inp, keepShots);
      && |s.log| <= |p.log| && p.log[..|s.log|] == s.log
      && (forall i :: |s.log| <= i < |p.log| ==> p.log[i] != MissionEnd(false))
      && (p.gameOver <==> Reported(p.log, |s.log|, true))
      && (p.gameOver ==> p.boss.Some? && p.boss.value.hp <= 0.0)
  {
    var s1 := Integrate(s, inp.held);
    var s2 := BossPhase(s1);
    var s3 := FireWeapons(cfg.weapons, s2, inp.held, inp.now);
    var s4 := ProjectilePhase(s3, inp.drops);
    var s5 := Spawn(cfg, s4, inp.now, inp.spawn);
    var s6 := HostilePhase(s5, inp.sin, keepShots);
    var s7 := PickupPhase(s6);
    var s8 := Regen(cfg.shield, s7);
    assert s8 == Play(cfg, s, inp, keepShots);
    assert Armed(cfg.weapons);
    PickupPassKeeps(s6.powerups, s6.(powerups := []));
    FireWeaponsSafe(cfg.weapons, s2, inp.held, inp.now);
    BulletPassReports(s3.bullets, s3.(bullets := []), inp.drops);
    assert s8.log == s4.log && s8.gameOver == s4.gameOver && s8.boss == s4.boss;
    PhaseLogs(s.log, s3.log, s4.log, s4.gameOver);
  }

  /** A boss that the gameplay phases bring from above zero to at or below
      zero has been reported: the lethal hit reports a success. */
  lemma PlayReportsKill(cfg: Config, s: State, inp: TickInput, keepShots: bool)
    requires AmmoTracked(cfg.weapons, s.ammo) && ValidRolls(inp.spawn)
    ensures var p := Play(cfg, s, inp, keepShots);
      && (p.boss.Some? <==> s.boss.Some?)
      && (s.boss.Some? && s.boss.value.hp > 0.0 && p.boss.value.hp <= 0.0 ==> Reported(p.log, |s.log|, true))
  {
    var s1 := Integrate(s, inp.held);
    var s2 := BossPhase(s1);
    var s3 := FireWeapons(cfg.weapons, s2, inp.held, inp.now);
    var s4 := ProjectilePhase(s3, inp.drops);
    var s5 := Spawn(cfg, s4, inp.now, inp.spawn);
    var s6 := HostilePhase(s5, inp.sin, keepShots);
    var s7 := PickupPhase(s6);
    var p := Regen(cfg.shield, s7);
    assert p == Play(cfg, s, inp, keepShots);
    BulletPassReports(s3.bullets, s3.(bullets := []), inp.drops);
    assert p.boss == s4.boss && p.log == s4.log;
    if s.boss.Some? {
      BulletPassBossKill(s3.bullets, s3.(bullets := []), inp.drops);
      assert s3.boss.value.hp == s.boss.value.hp;
      assert |s3.log| >= |s.log|;
    }
  }

  /** Every tick keeps the ship in the field, the hull at or below 100, the
      shield charge in [0, capacity], every ammo counter tracked and
      non-negative, and every bomber timer in [0, 120]. */
  lemma TickPreservesInv(cfg: Config, s: State, inp: TickInput, keepShots: bool)
    requires WellFormed(cfg) && Inv(cfg, s) && ValidRolls(inp.spawn)
    ensures Inv(cfg, Tick(cfg, s, inp, keepShots))
  {
    if !(s.gameOver || inp.abortOpen) {
      PlayKeepsInv(cfg, s, inp, keepShots);
    }
  }

  /** What the end checks report, given a record whose log past `n` holds no
      failure and whose flag is set exactly when a success is reported there,
      which needs a boss at or below zero. */
  lemma EndReports(cfg: Config, p: State, n: nat)
    requires n <= |p.log|
    requires forall i :: n <= i < |p.log| ==> p.log[i] != MissionEnd(false)
    requires p.gameOver <==> Reported(p.log, n, true)
    requires p.gameOver ==> p.boss.Some? && p.boss.value.hp <= 0.0
    ensures var t := EndChecks(cfg, p);
      && |p.log| <= |t.log| && t.log[..n] == p.log[..n]
      && (Reported(t.log, n, false) <==> t.hp <= 0.0)
      && (Reported(t.log, n, true) ==>
            (cfg.mission != Comet && t.progress as real >= t.totalToKill) || (t.boss.Some? && t.boss.value.hp <= 0.0))
      && (cfg.mission != Comet && t.progress as real >= t.totalToKill ==> Reported(t.log, n, true))
      && (t.gameOver <==> Reported(t.log, n, true) || Reported(t.log, n, false))
  {
    var t := EndChecks(cfg, p);
    var m := |p.log|;
    forall i | n <= i < m
      ensures t.log[i] == p.log[i]
    {
      assert t.log[i] == t.log[..m][i];
    }
    assert t.log[..n] == t.log[..m][..n];
    if Reported(t.log, n, false) {
      var i :| n <= i < |t.log| && t.log[i] == MissionEnd(false);
    }
    if t.hp <= 0.0 {
      assert t.log[|t.log| - 1] == MissionEnd(false);
    }
    if Reported(t.log, n, true) {
      var i :| n <= i < |t.log| && t.log[i] == MissionEnd(true);
      if i < m {
        assert Reported(p.log, n, true);
      }
    }
    if p.gameOver {
      var i :| n <= i < m && p.log[i] == MissionEnd(true);
      assert t.log[i] == MissionEnd(true);
    }
    if cfg.mission != Comet && t.progress as real >= t.totalToKill {
      assert t.log[m] == MissionEnd(true);
    }
  }

  /** The outcome a tick reports. Failure is reported exactly when the hull
      ends at or below zero; success only when the kill quota of a non-COMET
      mission is met or the boss is at or below zero, and always when that
      quota is met; the flag is set exactly when something was reported. */
  lemma TickOutcome(cfg: Config, s: State, inp: TickInput, keepShots: bool)
    requires WellFormed(cfg) && Inv(cfg, s) && ValidRolls(inp.spawn)
    requires !s.gameOver && !inp.abortOpen
    ensures var t := Tick(cfg, s, inp, keepShots);
      && |s.log| <= |t.log| && t.log[..|s.log|] == s.log
      && (Reported(t.log, |s.log|, false) <==> t.hp <= 0.0)
      && (Reported(t.log, |s.log|, true) ==>
            (cfg.mission != Comet && t.progress as real >= t.totalToKill) || (t.boss.Some? && t.boss.value.hp <= 0.0))
      && (cfg.mission != Comet && t.progress as real >= t.totalToKill ==> Reported(t.log, |s.log|, true))
      && (t.gameOver <==> Reported(t.log, |s.log|, true) || Reported(t.log, |s.log|, false))
      && (s.boss.Some? && s.boss.value.hp > 0.0 ==> t.boss.Some? && (t.boss.value.hp <= 0.0 ==> Reported(t.log, |s.log|, true)))
  {
    var p := Play(cfg, s, inp, keepShots);
    var t := EndChecks(cfg, p);
    assert t == Tick(cfg, s, inp, keepShots);
    PlayReports(cfg, s, inp, keepShots);
    PlayReportsKill(cfg, s, inp, keepShots);
    EndReports(cfg, p, |s.log|);
    if s.boss.Some? && s.boss.value.hp > 0.0 && t.boss.value.hp <= 0.0 {
      var i :| |s.log| <= i < |p.log| && p.log[i] == MissionEnd(true);
      assert t.log[i] == t.log[..|p.log|][i];
    }
  }

  /** The two end checks are independent: a tick that ends with the quota met
      and the hull at or below zero reports both outcomes. */
  lemma TickMayReportTwice(cfg: Config, s: State, inp: TickInput, keepShots: bool)
    requires WellFormed(cfg) && Inv(cfg, s) && ValidRolls(inp.spawn)
    requires !s.gameOver && !inp.abortOpen
    requires var t := Tick(cfg, s, inp, keepShots); t.hp <= 0.0 && cfg.mission != Comet && t.progress as real >= t.totalToKill
    ensures Reported(Tick(cfg, s, inp, keepShots).log, |s.log|, true) && Reported(Tick(cfg, s, inp, keepShots).log, |s.log|, false)
  {
    TickOutcome(cfg, s, inp, keepShots);
  }

  /** A tick only appends to the log. */
  lemma TickExtendsLog(cfg: Config, s: State, inp: TickInput, keepShots: bool)
    requires WellFormed(cfg) && Inv(cfg, s) && ValidRolls(inp.spawn)
    ensures var t := Tick(cfg, s, inp, keepShots); |s.log| <= |t.log| && t.log[..|s.log|] == s.log
  {
    if !s.gameOver && !inp.abortOpen {
      TickOutcome(cfg, s, inp, keepShots);
    }
  }

  /** From the enemy phase on, keeping the shots changes only the bullets:
      the phases as written end with the bullets they started with, the
      corrected ones with those followed by the fired shots. */
  lemma LaterPhasesKeepShotsApart(cfg: Config, s5: State, sin: real -> real)
    ensures var a := Regen(cfg.shield, PickupPhase(HostilePhase(s5, sin, false)));
      var c := Regen(cfg.shield, PickupPhase(HostilePhase(s5, sin, true)));
      && c == a.(bullets := c.bullets)
      && a.bullets == s5.bullets && c.bullets == s5.bullets + FiredShots(s5.enemies, sin)
  {
    var a6 := HostilePhase(s5, sin, false);
    var c6 := HostilePhase(s5, sin, true);
    ShotsOnlyInBullets(s5.enemies, s5.(enemies := []), s5.(enemies := []), sin, false, true);
    PickupsIgnoreBullets(a6.powerups, a6.(powerups := []), c6.(powerups := []));
  }

  /** The corrected tick differs from the tick as written only in its
      bullets: it ends with the same bullets followed by the hostile shots
      the bombers fired, and every other field is the same. */
  lemma CorrectionAddsShotsOnly(cfg: Config, s: State, inp: TickInput)
    requires AmmoTracked(cfg.weapons, s.ammo) && ValidRolls(inp.spawn)
    ensures var a := Tick(cfg, s, inp, false);
      var c := Tick(cfg, s, inp, true);
      && c == a.(bullets := c.bullets)
      && |a.bullets| <= |c.bullets| && c.bullets[..|a.bullets|] == a.bullets
      && HostileShots(c.bullets[|a.bullets|..])
  {
    if !(s.gameOver || inp.abortOpen) {
      var s1 := Integrate(s, inp.held);
      var s2 := BossPhase(s1);
      var s3 := FireWeapons(cfg.weapons, s2, inp.held, inp.now);
      var s4 := ProjectilePhase(s3, inp.drops);
      var s5 := Spawn(cfg, s4, inp.now, inp.spawn);
      var fired := FiredShots(s5.enemies, inp.sin);
      LaterPhasesKeepShotsApart(cfg, s5, inp.sin);
      FiredShotsHostile(s5.enemies, inp.sin);
      var a := Tick(cfg, s, inp, false);
      var c := Tick(cfg, s, inp, true);
      assert a.bullets == s5.bullets && c.bullets == s5.bullets + fired;
      assert c.bullets[|a.bullets|..] == fired;
    }
  }

  /** The frame loop over a sequence of ticks' inputs. */
  function Run(cfg: Config, s: State, ins: seq<TickInput>, keepShots: bool): (t: State)
    requires WellFormed(cfg) && Inv(cfg, s)
    requires forall i :: 0 <= i < |ins| ==> ValidRolls(ins[i].spawn)
    ensures Inv(cfg, t)
    ensures s.gameOver ==> t == s
    ensures |s.log| <= |t.log| && t.log[..|s.log|] == s.log
    decreases |ins|
  {
    if |ins| == 0 then s
    else
      var s1 := Tick(cfg, s, ins[0], keepShots);
      TickPreservesInv(cfg, s, ins[0], keepShots);
      TickExtendsLog(cfg, s, ins[0], keepShots);
      var t := Run(cfg, s1, ins[1..], keepShots);
      assert t.log[..|s.log|] == t.log[..|s1.log|][..|s.log|];
      t
  }
}

=== FILE: entities.dfy ===
/** The movable objects of the combat engine: bullets, enemies, power-ups and
    the boss, their construction and their per-tick self-update.
    Every `Math.random()` draw is an input in [0, 1); `Math.sin` is an input
    function. Drawing-only fields (colours, polygon vertices) are not kept. */
module Entities {
  import opened Options
  import opened Geometry
  import opened Loadout

  /** A projectile. Its box is 4 by 10; `isEnemy` marks a hostile shot. */
  datatype Bullet = Bullet(x: real, y: real, vx: real, vy: real, damage: real, kind: WeaponType, isEnemy: bool)

  datatype EnemyKind = Scout | Interceptor | Bomber | Rock

  datatype Enemy = Enemy(
    kind: EnemyKind,
    x: real, y: real, w: real, h: real,
    hp: real, maxHp: real,
    vy: real,
    fireTimer: real,
    startX: real,
    sineOffset: real,
    rotation: real, rotationSpeed: real)

  datatype PickupKind = HpPack | AmmoPack | Gift

  datatype PowerUp = PowerUp(x: real, y: real, vy: real, kind: PickupKind)

  /** The boss of a COMET mission: a plain 72 by 72 entity. */
  datatype Boss = Boss(x: real, y: real, w: real, h: real, hp: real, maxHp: real)

  /** The random draws one enemy spawn consumes. */
  datatype SpawnRolls = SpawnRolls(kind: real, size: real, speed: real, fireTimer: real, x: real, sineOffset: real, rotation: real, rotationSpeed: real)

  /** The two draws a kill consumes: the drop chance and the HP/AMMO choice. */
  datatype DropRoll = DropRoll(chance: real, kind: real)

  predicate Unit(r: real) { 0.0 <= r < 1.0 }

  predicate ValidRolls(r: SpawnRolls)
  {
    Unit(r.kind) && Unit(r.size) && Unit(r.speed) && Unit(r.fireTimer) && Unit(r.x)
    && Unit(r.sineOffset) && Unit(r.rotation) && Unit(r.rotationSpeed)
  }

  // ---- bullets ----

  /** Straight-line flight: one velocity step. */
  function Advance(b: Bullet): (b': Bullet)
    ensures b'.x - b.x == b.vx && b'.y - b.y == b.vy
    ensures b' == b.(x := b'.x, y := b'.y)
  {
    b.(x := b.x + b.vx, y := b.y + b.vy)
  }

  /** A bullet this far above or below the playfield is dropped. */
  predicate OutOfField(b: Bullet)
  {
    b.y < -100.0 || b.y > GameHeight + 100.0
  }

  /** The shot a bomber releases: straight down at 5, 10 damage, hostile. */
  function BomberShot(x: real, y: real): Bullet
  {
    Bullet(x, y, 0.0, 5.0, 10.0, Projectile, true)
  }

  // ---- enemies ----

  /** The kind drawn for a spawn: a rock on COMET, otherwise scout,
      interceptor or bomber by thirds of the draw. */
  function KindOf(isRock: bool, roll: real): (k: EnemyKind)
    requires Unit(roll)
    ensures k == Rock <==> isRock
    ensures !isRock ==> (k == Scout <==> roll < 1.0 / 3.0) && (k == Bomber <==> roll >= 2.0 / 3.0)
  {
    if isRock then Rock
    else
      var i := (roll * 3.0).Floor;
      if i == 0 then Scout else if i == 1 then Interceptor else Bomber
  }

  /** Hit points per difficulty point. */
  function BaseHp(k: EnemyKind): real
  {
    match k
    case Rock => 80.0
    case Bomber => 60.0
    case Interceptor => 30.0
    case Scout => 20.0
  }

  /** The enemy constructor: type-dependent hit points, size and descent speed. */
  function NewEnemy(x: real, y: real, difficulty: real, isRock: bool, r: SpawnRolls): (e: Enemy)
    requires ValidRolls(r)
    ensures e.kind == Rock <==> isRock
    ensures e.x == x && e.y == y && e.startX == x
    ensures e.hp == e.maxHp == BaseHp(e.kind) * difficulty
    ensures e.w == e.h
    ensures e.kind == Rock ==> 40.0 <= e.w < 80.0 && 2.0 <= e.vy < 4.5
    ensures e.kind == Bomber ==> e.w == 45.0 && e.vy == 1.0
    ensures e.kind == Interceptor ==> e.w == 30.0 && e.vy == 3.5
    ensures e.kind == Scout ==> e.w == 30.0 && e.vy == 2.5
    ensures 0.0 <= e.fireTimer < 100.0
    ensures -0.02 <= e.rotationSpeed < 0.02
  {
    var kind := KindOf(isRock, r.kind);
    var size := match kind
      case Rock => 40.0 + r.size * 40.0
      case Bomber => 45.0
      case _ => 30.0;
    var vy := match kind
      case Rock => 2.0 + r.speed * 2.5
      case Bomber => 1.0
      case Interceptor => 3.5
      case Scout => 2.5;
    Enemy(kind, x, y, size, size, BaseHp(kind) * difficulty, BaseHp(kind) * difficulty, vy,
          r.fireTimer * 100.0, x, r.sineOffset * Pi * 2.0, r.rotation * Pi * 2.0, (r.rotationSpeed - 0.5) * 0.04)
  }

  /** Result of one enemy's self-update: the moved enemy and the shot it fired, if any. */
  datatype EnemyStep = EnemyStep(enemy: Enemy, shot: Option<Bullet>)

  /** An enemy's per-tick behaviour, then the uniform descent by its own speed:
      a rock turns, an interceptor weaves around its spawn column, a bomber
      counts its fire timer and fires when it passes 120. */
  function UpdateEnemy(e: Enemy, sin: real -> real): (r: EnemyStep)
    ensures r.enemy.y == e.y + e.vy
    ensures r.enemy == e.(x := r.enemy.x, y := r.enemy.y, rotation := r.enemy.rotation, fireTimer := r.enemy.fireTimer)
    ensures e.kind != Interceptor ==> r.enemy.x == e.x
    ensures e.kind == Interceptor ==> r.enemy.x == e.startX + sin(e.y * 0.05 + e.sineOffset) * 60.0
    ensures e.kind == Rock ==> r.enemy.rotation == e.rotation + e.rotationSpeed
    ensures e.kind != Rock ==> r.enemy.rotation == e.rotation
    ensures e.kind != Bomber ==> r.enemy.fireTimer == e.fireTimer && r.shot.None?
    ensures e.kind == Bomber ==> (r.shot.Some? <==> e.fireTimer + 1.0 > 120.0)
    ensures e.kind == Bomber && r.shot.None? ==> r.enemy.fireTimer == e.fireTimer + 1.0
    ensures r.shot.Some? ==> r.enemy.fireTimer == 0.0 && r.shot.value == BomberShot(e.x, e.y)
    ensures 0.0 <= e.fireTimer <= 120.0 ==> 0.0 <= r.enemy.fireTimer <= 120.0
  {
    var (moved, shot) :=
      match e.kind
      case Rock => (e.(rotation := e.rotation + e.rotationSpeed), None)
      case Interceptor => (e.(x := e.startX + sin(e.y * 0.05 + e.sineOffset) * 60.0), None)
      case Bomber =>
        var t := e.fireTimer + 1.0;
        if t > 120.0 then (e.(fireTimer := 0.0), Some(BomberShot(e.x, e.y))) else (e.(fireTimer := t), None)
      case Scout => (e, None);
    EnemyStep(moved.(y := moved.y + moved.vy), shot)
  }

  /** With a sine bounded by 1, an interceptor never strays more than 60 from its spawn column. */
  lemma WeaveBounded(e: Enemy, sin: real -> real)
    requires e.kind == Interceptor
    requires -1.0 <= sin(e.y * 0.05 + e.sineOffset) <= 1.0
    ensures Abs(UpdateEnemy(e, sin).enemy.x - e.startX) <= 60.0
  {
  }

  /** A bomber's timer starting in [0, 120] fires exactly once in 121 ticks
      when started at 0: it climbs one per tick and resets on the 121st. */
  lemma {:induction false} BomberFiresAfterCount(e: Enemy, sin: real -> real, n: nat)
    requires e.kind == Bomber && e.fireTimer == 120.0 - n as real
    requires n <= 120
    ensures BomberTicks(e, sin, n + 1).shot.Some?
    ensures forall k :: 0 < k <= n ==> BomberTicks(e, sin, k).shot.None?
    decreases n
  {
    if n > 0 {
      var e1 := UpdateEnemy(e, sin).enemy;
      BomberFiresAfterCount(e1, sin, n - 1);
      forall k | 0 < k <= n ensures BomberTicks(e, sin, k).shot.None? {
        if k > 1 {
          BomberTicksUnfold(e, sin, k);
        }
      }
      BomberTicksUnfold(e, sin, n + 1);
    }
  }

  /** `k` successive updates of one enemy; the step of the last one. */
  function BomberTicks(e: Enemy, sin: real -> real, k: nat): EnemyStep
    requires k > 0
    decreases k
  {
    if k == 1 then UpdateEnemy(e, sin) else BomberTicks(UpdateEnemy(e, sin).enemy, sin, k - 1)
  }

  lemma BomberTicksUnfold(e: Enemy, sin: real -> real, k: nat)
    requires k > 1
    ensures BomberTicks(e, sin, k) == BomberTicks(UpdateEnemy(e, sin).enemy, sin, k - 1)
  {
  }

  // ---- power-ups ----

  /** A dropped power-up: gifts drift down at 1, the others at 1.5. */
  function NewPowerUp(x: real, y: real, kind: PickupKind): (p: PowerUp)
    ensures p.x == x && p.y == y && p.kind == kind
    ensures p.vy == (if kind == Gift then 1.0 else 1.5)
  {
    PowerUp(x, y, if kind == Gift then 1.0 else 1.5, kind)
  }

  function Drift(p: PowerUp): (p': PowerUp)
    ensures p'.y - p.y == p.vy
    ensures p' == p.(y := p'.y)
  {
    p.(y := p.y + p.vy)
  }

  // ---- boss ----

  /** The COMET boss: centred above the playfield, 8000 hit points per difficulty point. */
  function NewBoss(difficulty: real): (b: Boss)
    ensures b.hp == b.maxHp == 8000.0 * difficulty
    ensures b.x == GameWidth / 2.0 && b.y == -150.0 && b.w == 72.0 && b.h == 72.0
  {
    Boss(GameWidth / 2.0, -150.0, 72.0, 72.0, 8000.0 * difficulty, 8000.0 * difficulty)
  }

  /** The boss descends 0.4 per tick until it is at or below the hover line y = 160. */
  function Descend(b: Boss): (b': Boss)
    ensures b' == b.(y := b'.y)
    ensures b.y < 160.0 ==> b'.y == b.y + 0.4
    ensures b.y >= 160.0 ==> b'.y == b.y
    ensures b.y <= 160.0 ==> b'.y < 160.4
  {
    if b.y < 160.0 then b.(y := b.y + 0.4) else b
  }

  function BossBounds(b: Boss): Bounds { BoundsOf(b.x, b.y, b.w, b.h) }

  function EnemyBounds(e: Enemy): Bounds { BoundsOf(e.x, e.y, e.w, e.h) }
}

=== FILE: firing.dfy ===
/** The weapon ledger: per-weapon fire-rate gate, ammo accounting with the
    "denied" path, and the volley of bullets a successful shot spawns. */
module Firing {
  import opened Loadout
  import opened Entities
  import opened World

  /** The last time a weapon fired; a weapon that never fired counts as fired at 0. */
  function LastFire(s: State, id: string): real
  {
    if id in s.lastFire then s.lastFire[id] else 0.0
  }

  /** The fire-rate gate: strictly more than 1000 / rate milliseconds since the
      last shot. A zero rate waits forever. */
  predicate GateOpen(now: real, last: real, rate: real)
  {
    rate != 0.0 && now - last > 1000.0 / rate
  }

  /** For a positive rate the gate is the shots-per-second reading of the elapsed time. */
  lemma GateAsRate(now: real, last: real, rate: real)
    requires rate > 0.0
    ensures GateOpen(now, last, rate) <==> (now - last) * rate > 1000.0
  {
    if (now - last) * rate > 1000.0 {
      assert (now - last) > 1000.0 / rate;
    }
  }

  /** Bullets per successful shot: one for an ammo-based weapon, the loadout count otherwise. */
  function ShotCount(w: Weapon): int
  {
    if w.isAmmoBased then 1 else w.count
  }

  /** Lateral offset of the i-th bullet of a volley of `count`. */
  function Offset(count: int, i: int): real
  {
    if count > 1 then (if i == 0 then -12.0 else 12.0) else 0.0
  }

  /** The bullets one successful shot spawns, fired from 20 above the ship
      and flying straight up at 12. */
  function Volley(w: Weapon, px: real, py: real): (bs: seq<Bullet>)
    ensures |bs| == (if ShotCount(w) > 0 then ShotCount(w) else 0)
    ensures forall i :: 0 <= i < |bs| ==>
      && !bs[i].isEnemy && bs[i].kind == w.kind && bs[i].damage == w.damage
      && bs[i].vx == 0.0 && bs[i].vy == -12.0 && bs[i].y == py - 20.0
    ensures |bs| == 1 ==> bs[0].x == px
    ensures |bs| > 1 ==> bs[0].x == px - 12.0 && forall i :: 1 <= i < |bs| ==> bs[i].x == px + 12.0
  {
    var n := ShotCount(w);
    seq(if n > 0 then n else 0, i => Bullet(px + Offset(n, i), py - 20.0, 0.0, -12.0, w.damage, w.kind, false))
  }

  /** The weapon would fire if it had the ammo: trigger held and gate open. */
  predicate Ready(s: State, w: Weapon, held: set<string>, now: real)
  {
    Triggered(w, held) && GateOpen(now, LastFire(s, w.id), w.fireRate)
  }

  /** One weapon's turn in the firing phase. */
  function FireWeapon(s: State, w: Weapon, held: set<string>, now: real): (t: State)
    requires w.isAmmoBased ==> w.id in s.ammo
    ensures t == s.(bullets := t.bullets, ammo := t.ammo, lastFire := t.lastFire, log := t.log)
    ensures t.ammo.Keys == s.ammo.Keys
    // every other weapon's gate and counter are left alone
    ensures forall id :: id != w.id ==> LastFire(t, id) == LastFire(s, id)
    ensures forall id :: id != w.id && id in s.ammo ==> t.ammo[id] == s.ammo[id]
    // not ready: nothing happens
    ensures !Ready(s, w, held, now) ==> t == s
    // ready but out of ammo: denied, the gate is not consumed
    ensures Ready(s, w, held, now) && w.isAmmoBased && s.ammo[w.id] <= 0 ==>
      t == s.(log := s.log + [Denied(w.id)])
    // fired: gate consumed, volley appended
    ensures Ready(s, w, held, now) && !(w.isAmmoBased && s.ammo[w.id] <= 0) ==>
      && t.lastFire == s.lastFire[w.id := now]
      && t.bullets == s.bullets + Volley(w, s.px, s.py)
      && t.log == s.log
    ensures w.isAmmoBased && t.bullets != s.bullets ==>
      t.ammo == s.ammo[w.id := s.ammo[w.id] - 1] && |t.bullets| == |s.bullets| + 1
    ensures !w.isAmmoBased ==> t.ammo == s.ammo
    // only appends: player bullets, or one denial
    ensures |s.bullets| <= |t.bullets| && t.bullets[..|s.bullets|] == s.bullets
    ensures forall i :: |s.bullets| <= i < |t.bullets| ==> !t.bullets[i].isEnemy
    ensures t.log == s.log || t.log == s.log + [Denied(w.id)]
    ensures AmmoNonNegative(s.ammo) ==> AmmoNonNegative(t.ammo)
    ensures w.damage >= 0.0 && ShotsHarmless(s.bullets) ==> ShotsHarmless(t.bullets)
  {
    if !Triggered(w, held) then s
    else if !GateOpen(now, LastFire(s, w.id), w.fireRate) then s
    else if w.isAmmoBased && s.ammo[w.id] <= 0 then s.(log := s.log + [Denied(w.id)])
    else
      var ammo := if w.isAmmoBased then s.ammo[w.id := s.ammo[w.id] - 1] else s.ammo;
      s.(ammo := ammo, bullets := s.bullets + Volley(w, s.px, s.py), lastFire := s.lastFire[w.id := now])
  }

  predicate AmmoTracked(ws: seq<Weapon>, ammo: map<string, int>)
  {
    forall i :: 0 <= i < |ws| ==> ws[i].isAmmoBased ==> ws[i].id in ammo
  }

  predicate Armed(ws: seq<Weapon>)
  {
    forall i :: 0 <= i < |ws| ==> ws[i].damage >= 0.0
  }

  /** The firing phase: every equipped weapon in loadout order. */
  function FireWeapons(ws: seq<Weapon>, s: State, held: set<string>, now: real): (t: State)
    requires AmmoTracked(ws, s.ammo)
    ensures t == s.(bullets := t.bullets, ammo := t.ammo, lastFire := t.lastFire, log := t.log)
    ensures t.ammo.Keys == s.ammo.Keys
    ensures |s.bullets| <= |t.bullets| && t.bullets[..|s.bullets|] == s.bullets
    ensures forall i :: |s.bullets| <= i < |t.bullets| ==> !t.bullets[i].isEnemy
    ensures |s.log| <= |t.log| && t.log[..|s.log|] == s.log
    ensures forall i :: |s.log| <= i < |t.log| ==> t.log[i].Denied?
    decreases |ws|
  {
    if |ws| == 0 then s
    else
      var s1 := FireWeapon(s, ws[0], held, now);
      assert AmmoTracked(ws[1..], s1.ammo);
      var t := FireWeapons(ws[1..], s1, held, now);
      assert t.bullets[..|s.bullets|] == t.bullets[..|s1.bullets|][..|s.bullets|];
      assert t.log[..|s.log|] == t.log[..|s1.log|][..|s.log|];
      t
  }

  /** The firing phase keeps every counter non-negative and, with a loadout
      of non-negative damage, every bullet harmless to the player. */
  lemma {:induction false} FireWeaponsSafe(ws: seq<Weapon>, s: State, held: set<string>, now: real)
    requires AmmoTracked(ws, s.ammo)
    ensures AmmoNonNegative(s.ammo) ==> AmmoNonNegative(FireWeapons(ws, s, held, now).ammo)
    ensures Armed(ws) && ShotsHarmless(s.bullets) ==> ShotsHarmless(FireWeapons(ws, s, held, now).bullets)
    decreases |ws|
  {
    if |ws| > 0 {
      var s1 := FireWeapon(s, ws[0], held, now);
      assert AmmoTracked(ws[1..], s1.ammo);
      FireWeaponsSafe(ws[1..], s1, held, now);
      if Armed(ws) {
        assert ws[0].damage >= 0.0;
        assert Armed(ws[1..]);
      }
    }
  }
}

=== FILE: geometry.dfy ===
/** Playfield geometry shared by every entity of the combat engine:
    the playfield size, entity bounding boxes, the strict box test used for
    bullet hits, and the square-free form of `Math.hypot(dx, dy) < r`. */
module Geometry {

  /** Width and height of the combat playfield (GAME_WIDTH, GAME_HEIGHT). */
  const GameWidth: real := 600.0
  const GameHeight: real := 640.0

  /** The double nearest to pi, as `Math.PI` evaluates. */
  const Pi: real := 3.141592653589793

  function Min(a: real, b: real): (r: real)
    ensures r <= a && r <= b
    ensures r == a || r == b
  {
    if a < b then a else b
  }

  function Max(a: real, b: real): (r: real)
    ensures r >= a && r >= b
    ensures r == a || r == b
  {
    if a > b then a else b
  }

  function Abs(a: real): real
  {
    if a < 0.0 then -a else a
  }

  /** Two successive one-sided clamps, as the player position is limited:
      first raised to `lo`, then lowered to `hi`. */
  function Clamp(v: real, lo: real, hi: real): (r: real)
    requires lo <= hi
    ensures lo <= r <= hi
    ensures lo <= v <= hi ==> r == v
    ensures v < lo ==> r == lo
    ensures v > hi ==> r == hi
  {
    var raised := if v < lo then lo else v;
    if raised > hi then hi else raised
  }

  /** An axis-aligned box given by its top-left corner and its size. */
  datatype Bounds = Bounds(left: real, top: real, w: real, h: real)

  /** The box of an entity whose centre is (x, y) and whose size is w by h. */
  function BoundsOf(x: real, y: real, w: real, h: real): (b: Bounds)
    ensures b.w == w && b.h == h
    ensures b.left + b.w / 2.0 == x && b.top + b.h / 2.0 == y
  {
    Bounds(x - w / 2.0, y - h / 2.0, w, h)
  }

  /** The strict containment test of a point in a box: a point on an edge is outside. */
  predicate Inside(px: real, py: real, b: Bounds)
  {
    px > b.left && px < b.left + b.w && py > b.top && py < b.top + b.h
  }

  /** A point is inside a centred box exactly when it is closer than half the
      size to the centre on each axis. */
  lemma InsideCentredBox(px: real, py: real, x: real, y: real, w: real, h: real)
    ensures Inside(px, py, BoundsOf(x, y, w, h)) <==> Abs(px - x) < w / 2.0 && Abs(py - y) < h / 2.0
  {
  }

  /** `Math.hypot(dx, dy) < r`: the Euclidean length of (dx, dy) is below r,
      stated on squares (no length is below a radius that is not positive). */
  predicate Within(dx: real, dy: real, r: real)
  {
    r > 0.0 && dx * dx + dy * dy < r * r
  }
}

=== FILE: guidance.dfy ===
/** Missile steering: the heading error to the target's bearing is wrapped
    into [-pi, pi] and 12% of it is corrected per tick. The bearing (an
    `atan2`) is an input, and the velocity re-derived from the heading by
    `cos`/`sin` is not modelled. */
module Guidance {
  import opened Geometry

  const Gain: real := 0.12

  /** Whole turns `diff += 2 pi` adds while below -pi. */
  function UpTurns(d: real): nat
    decreases ((-Pi) - d).Floor
  {
    if d < -Pi then 1 + UpTurns(d + 2.0 * Pi) else 0
  }

  /** `while (diff < -PI) diff += 2 * PI`. */
  function RaiseAbove(d: real): (r: real)
    ensures r >= -Pi
    ensures d >= -Pi ==> r == d
    ensures d < -Pi ==> r < Pi
    ensures r == d + 2.0 * Pi * UpTurns(d) as real
    decreases ((-Pi) - d).Floor
  {
    if d < -Pi then RaiseAbove(d + 2.0 * Pi) else d
  }

  /** Whole turns `diff -= 2 pi` removes while above pi. */
  function DownTurns(d: real): nat
    decreases (d - Pi).Floor
  {
    if d > Pi then 1 + DownTurns(d - 2.0 * Pi) else 0
  }

  /** `while (diff > PI) diff -= 2 * PI`. */
  function LowerBelow(d: real): (r: real)
    ensures r <= Pi
    ensures d <= Pi ==> r == d
    ensures d >= -Pi ==> r >= -Pi
    ensures r == d - 2.0 * Pi * DownTurns(d) as real
    decreases (d - Pi).Floor
  {
    if d > Pi then LowerBelow(d - 2.0 * Pi) else d
  }

  /** The net number of whole turns the two loops add. */
  function Turns(d: real): int
  {
    UpTurns(d) - DownTurns(RaiseAbove(d))
  }

  /** The heading difference after both wrap loops. */
  function Wrap(diff: real): (r: real)
    ensures -Pi <= r <= Pi
    ensures -Pi <= diff <= Pi ==> r == diff
    ensures r == diff + 2.0 * Pi * Turns(diff) as real
  {
    LowerBelow(RaiseAbove(diff))
  }

  /** Angles that differ by whole turns wrap to the same open-interval representative. */
  lemma WrapCanonical(x: real, k: int)
    requires -Pi < x < Pi
    ensures Wrap(x + 2.0 * Pi * k as real) == x
  {
    var y := x + 2.0 * Pi * k as real;
    var m := Turns(y) + k;
    assert Wrap(y) == x + 2.0 * Pi * m as real;
    assert -1 < m < 1;
  }

  /** The heading after one tick: 12% of the wrapped error toward the bearing
      while the target is alive; unchanged once it is gone. */
  function Steer(heading: real, bearing: real, targetAlive: bool): (h: real)
    ensures !targetAlive ==> h == heading
    ensures targetAlive ==> Abs(h - heading) <= Gain * Pi
  {
    if targetAlive then heading + Wrap(bearing - heading) * Gain else heading
  }

  /** Against a target that holds its bearing, each tick leaves 88% of the
      wrapped heading error, with the same sign: the error shrinks strictly
      until it is zero. */
  lemma {:induction false} ErrorShrinks(heading: real, bearing: real)
    ensures Wrap(bearing - Steer(heading, bearing, true)) == (1.0 - Gain) * Wrap(bearing - heading)
    ensures Wrap(bearing - heading) != 0.0 ==> Abs(Wrap(bearing - Steer(heading, bearing, true))) < Abs(Wrap(bearing - heading))
  {
    var e := Wrap(bearing - heading);
    var t := Turns(bearing - heading);
    assert bearing - Steer(heading, bearing, true) == (1.0 - Gain) * e + 2.0 * Pi * (-t) as real;
    WrapCanonical((1.0 - Gain) * e, -t);
  }
}

=== FILE: hostiles.dfy ===
/** The spawner and the enemy pass: every enemy, last first, runs its own
    behaviour, leaves the field below, or rams the player. */
module Hostiles {
  import opened Options
  import opened Geometry
  import opened Loadout
  import opened Entities
  import opened World
  import opened Shields

  /** Whether enough time has passed since the last spawn: 400 ms on COMET,
      1200 / (0.8 difficulty) ms otherwise (never, at difficulty 0). */
  predicate SpawnDue(cfg: Config, elapsed: real)
  {
    if cfg.mission == Comet then elapsed > 400.0
    else cfg.difficulty != 0.0 && elapsed > 1200.0 / (cfg.difficulty * 0.8)
  }

  /** The spawner. It does nothing once the boss is below the top edge;
      otherwise, when due, it appends one enemy (a rock on COMET) at a random
      column 20..580 just above the field and restarts its clock. */
  function Spawn(cfg: Config, s: State, now: real, r: SpawnRolls): (t: State)
    requires ValidRolls(r)
    ensures t == s.(enemies := t.enemies, lastEnemy := t.lastEnemy)
    ensures (s.boss.Some? && s.boss.value.y > 0.0) || !SpawnDue(cfg, now - s.lastEnemy) ==> t == s
    ensures (s.boss.None? || s.boss.value.y <= 0.0) && SpawnDue(cfg, now - s.lastEnemy) ==>
      && t.lastEnemy == now
      && |t.enemies| == |s.enemies| + 1 && t.enemies[..|s.enemies|] == s.enemies
      && var e := t.enemies[|s.enemies|];
         && e.y == -100.0 && 20.0 <= e.x < GameWidth - 20.0
         && (e.kind == Rock <==> cfg.mission == Comet)
         && e == NewEnemy(e.x, -100.0, cfg.difficulty, cfg.mission == Comet, r)
    ensures TimersInRange(s.enemies) ==> TimersInRange(t.enemies)
  {
    if s.boss.Some? && s.boss.value.y > 0.0 then s
    else if SpawnDue(cfg, now - s.lastEnemy) then
      var e := NewEnemy(r.x * (GameWidth - 40.0) + 20.0, -100.0, cfg.difficulty, cfg.mission == Comet, r);
      s.(enemies := s.enemies + [e], lastEnemy := now)
    else s
  }

  /** Ramming distance: half a rock's width plus 5, or 45 for any other enemy. */
  function ContactRadius(e: Enemy): (r: real)
    ensures e.kind == Rock ==> r == e.w / 2.0 + 5.0
    ensures e.kind != Rock ==> r == 45.0
  {
    if e.kind == Rock then e.w / 2.0 + 5.0 else 45.0
  }

  /** Hull and shield damage of a ram: 40 for a rock, 30 otherwise. */
  function ContactDamage(e: Enemy): (d: real)
    ensures d > 0.0
    ensures e.kind == Rock <==> d == 40.0
  {
    if e.kind == Rock then 40.0 else 30.0
  }

  predicate Rams(s: State, e: Enemy)
  {
    Within(e.x - s.px, e.y - s.py, ContactRadius(e))
  }

  /** One enemy's turn, after its own update: its shot, if it fired, is added
      to the bullets only when `keepShots` holds; it stays (in front of
      `s.enemies`) exactly when it is at most 100 below the field and not
      ramming; a ram costs the player the contact damage and nothing else is
      touched. */
  function StepEnemy(e: Enemy, s: State, sin: real -> real, keepShots: bool): (t: State)
    ensures var st := UpdateEnemy(e, sin);
      && t == s.(enemies := t.enemies, bullets := t.bullets, hp := t.hp, sh := t.sh)
      && t.bullets == s.bullets + (if keepShots && st.shot.Some? then [st.shot.value] else [])
      && (st.enemy.y <= GameHeight + 100.0 && !Rams(s, st.enemy) <==> t.enemies == [st.enemy] + s.enemies)
      && (t.enemies != [st.enemy] + s.enemies ==> t.enemies == s.enemies)
      && (st.enemy.y <= GameHeight + 100.0 && Rams(s, st.enemy) ==> t == DamagePlayer(s, ContactDamage(st.enemy)).(bullets := t.bullets))
      && (st.enemy.y <= GameHeight + 100.0 && Rams(s, st.enemy) ==> t.hp + t.sh == s.hp + s.sh - ContactDamage(st.enemy))
      && (st.enemy.y > GameHeight + 100.0 || !Rams(s, st.enemy) ==> t.hp == s.hp && t.sh == s.sh)
  {
    var st := UpdateEnemy(e, sin);
    var s1 := if keepShots && st.shot.Some? then s.(bullets := s.bullets + [st.shot.value]) else s;
    if st.enemy.y > GameHeight + 100.0 then s1
    else if Rams(s1, st.enemy) then DamagePlayer(s1, ContactDamage(st.enemy))
    else s1.(enemies := [st.enemy] + s1.enemies)
  }

  /** The pass over `pending` (the enemies not yet visited), last enemy first. */
  function EnemyPass(pending: seq<Enemy>, s: State, sin: real -> real, keepShots: bool): (t: State)
    decreases |pending|
  {
    if |pending| == 0 then s
    else EnemyPass(pending[..|pending| - 1], StepEnemy(pending[|pending| - 1], s, sin, keepShots), sin, keepShots)
  }

  /** The enemy phase. With `keepShots` false it is the phase as the source
      writes it: a bomber's shot is made and announced, but the caller drops
      it. With `keepShots` true each shot is added to the bullets. Either way
      it never scores, leaves only enemies that are on the field and clear of
      the ship, and adds nothing but the fired shots. */
  function HostilePhase(s: State, sin: real -> real, keepShots: bool): (t: State)
    ensures t == s.(enemies := t.enemies, bullets := t.bullets, hp := t.hp, sh := t.sh)
    ensures Clear(t, t.enemies)
    ensures |t.enemies| <= |s.enemies|
    ensures t.bullets == s.bullets + (if keepShots then FiredShots(s.enemies, sin) else [])
    ensures (s.sh >= 0.0 ==> t.sh >= 0.0) && t.hp <= s.hp && t.sh <= s.sh
    ensures TimersInRange(s.enemies) ==> TimersInRange(t.enemies)
  {
    EnemyPassKeeps(s.enemies, s.(enemies := []), sin, keepShots);
    ShotsKept(s.enemies, s.(enemies := []), sin);
    EnemyPass(s.enemies, s.(enemies := []), sin, keepShots)
  }

  predicate Clear(s: State, es: seq<Enemy>)
  {
    forall i :: 0 <= i < |es| ==> es[i].y <= GameHeight + 100.0 && !Rams(s, es[i])
  }

  predicate HostileShots(bs: seq<Bullet>)
  {
    forall i :: 0 <= i < |bs| ==> bs[i].isEnemy && bs[i].damage == 10.0
  }

  /** One step of the pass keeps the score, the progress and the ledger, only
      damages the player, and adds at most one hostile shot. */
  lemma StepEnemyKeeps(e: Enemy, s: State, sin: real -> real, keepShots: bool)
    ensures var t := StepEnemy(e, s, sin, keepShots);
      && t == s.(enemies := t.enemies, bullets := t.bullets, hp := t.hp, sh := t.sh)
      && (t.enemies == s.enemies || t.enemies == [UpdateEnemy(e, sin).enemy] + s.enemies)
      && (t.enemies != s.enemies ==> UpdateEnemy(e, sin).enemy.y <= GameHeight + 100.0 && !Rams(s, UpdateEnemy(e, sin).enemy))
      && (t.bullets == s.bullets || (keepShots && t.bullets == s.bullets + [UpdateEnemy(e, sin).shot.value]
                                     && UpdateEnemy(e, sin).shot == Some(BomberShot(e.x, e.y))))
      && (s.sh >= 0.0 ==> t.sh >= 0.0)
      && t.hp <= s.hp && t.sh <= s.sh
  {
  }

  /** The pass as a whole: it never scores, never changes mission progress,
      only damages the player, keeps every bomber timer in [0, 120], and
      leaves only enemies that are in the field and not ramming. */
  lemma {:induction false} EnemyPassKeeps(pending: seq<Enemy>, s: State, sin: real -> real, keepShots: bool)
    ensures var t := EnemyPass(pending, s, sin, keepShots);
      && t == s.(enemies := t.enemies, bullets := t.bullets, hp := t.hp, sh := t.sh)
      && |t.enemies| <= |s.enemies| + |pending|
      && (Clear(s, s.enemies) ==> Clear(t, t.enemies))
      && (TimersInRange(pending) && TimersInRange(s.enemies) ==> TimersInRange(t.enemies))
      && (s.sh >= 0.0 ==> t.sh >= 0.0)
      && t.hp <= s.hp && t.sh <= s.sh
    decreases |pending|
  {
    if |pending| > 0 {
      var e := pending[|pending| - 1];
      var s1 := StepEnemy(e, s, sin, keepShots);
      var rest := pending[..|pending| - 1];
      StepEnemyKeeps(e, s, sin, keepShots);
      EnemyPassKeeps(rest, s1, sin, keepShots);
      var t := EnemyPass(rest, s1, sin, keepShots);
      assert t == EnemyPass(pending, s, sin, keepShots);
      if TimersInRange(pending) && TimersInRange(s.enemies) {
        assert 0.0 <= e.fireTimer <= 120.0;
        assert TimersInRange(rest);
        assert TimersInRange(s1.enemies);
      }
      if Clear(s, s.enemies) {
        assert Clear(s1, s1.enemies);
      }
    }
  }

  /** The shots the enemies of `pending` fire in one pass, in the order the
      pass visits them (last enemy first). */
  function FiredShots(pending: seq<Enemy>, sin: real -> real): seq<Bullet>
    decreases |pending|
  {
    if |pending| == 0 then []
    else
      var st := UpdateEnemy(pending[|pending| - 1], sin);
      (if st.shot.Some? then [st.shot.value] else []) + FiredShots(pending[..|pending| - 1], sin)
  }

  /** Every shot an enemy fires is a hostile 10-damage bullet. */
  lemma {:induction false} FiredShotsHostile(pending: seq<Enemy>, sin: real -> real)
    ensures HostileShots(FiredShots(pending, sin))
    decreases |pending|
  {
    if |pending| > 0 {
      FiredShotsHostile(pending[..|pending| - 1], sin);
    }
  }

  /** The corrected pass appends every shot fired, in visiting order, and
      nothing else; the pass as written appends none of them. */
  lemma {:induction false} ShotsKept(pending: seq<Enemy>, s: State, sin: real -> real)
    ensures EnemyPass(pending, s, sin, true).bullets == s.bullets + FiredShots(pending, sin)
    ensures EnemyPass(pending, s, sin, false).bullets == s.bullets
    decreases |pending|
  {
    if |pending| > 0 {
      var e := pending[|pending| - 1];
      var rest := pending[..|pending| - 1];
      var st := UpdateEnemy(e, sin);
      var fired := if st.shot.Some? then [st.shot.value] else [];
      StepEnemyKeeps(e, s, sin, true);
      StepEnemyKeeps(e, s, sin, false);
      var s1 := StepEnemy(e, s, sin, true);
      assert s1.bullets == s.bullets + fired;
      ShotsKept(rest, s1, sin);
      ShotsKept(rest, StepEnemy(e, s, sin, false), sin);
      assert s.bullets + fired + FiredShots(rest, sin) == s.bullets + FiredShots(pending, sin);
    }
  }

  /** Whether shots are kept, and which bullets the record starts with, only
      changes the bullets the pass leaves: every other field comes out the same. */
  lemma {:induction false} ShotsOnlyInBullets(pending: seq<Enemy>, s: State, s': State, sin: real -> real, k: bool, k': bool)
    requires s' == s.(bullets := s'.bullets)
    ensures var t := EnemyPass(pending, s, sin, k);
      EnemyPass(pending, s', sin, k') == t.(bullets := EnemyPass(pending, s', sin, k').bullets)
    decreases |pending|
  {
    if |pending| > 0 {
      var e := pending[|pending| - 1];
      var s1 := StepEnemy(e, s, sin, k);
      var s1' := StepEnemy(e, s', sin, k');
      assert s1' == s1.(bullets := s1'.bullets);
      ShotsOnlyInBullets(pending[..|pending| - 1], s1, s1', sin, k, k');
    }
  }

  /** The dropped shot: a bomber whose timer passes 120 resets it, yet the
      phase as written adds no bullet, while the corrected phase adds one
      hostile shot straight down from where the bomber was. */
  lemma BomberShotDropped(s: State, sin: real -> real)
    requires s.enemies == [Enemy(Bomber, 300.0, 100.0, 45.0, 45.0, 60.0, 60.0, 1.0, 120.0, 300.0, 0.0, 0.0, 0.0)]
    requires s.px == 300.0 && s.py == 540.0
    ensures UpdateEnemy(s.enemies[0], sin).shot == Some(BomberShot(300.0, 100.0))
    ensures HostilePhase(s, sin, false).bullets == s.bullets
    ensures HostilePhase(s, sin, true).bullets == s.bullets + [BomberShot(300.0, 100.0)]
  {
    var e := s.enemies[0];
    var st := UpdateEnemy(e, sin);
    assert st.enemy.y == 101.0;
    assert s.enemies[..0] == [];
    var s0 := s.(enemies := []);
    assert !Rams(s0, st.enemy);
    assert EnemyPass(s.enemies, s0, sin, false) == EnemyPass([], StepEnemy(e, s0, sin, false), sin, false);
    assert EnemyPass(s.enemies, s0, sin, true) == EnemyPass([], StepEnemy(e, s0, sin, true), sin, true);
  }
}

=== FILE: loadout.dfy ===
/** The immutable mission configuration the engine is created with: the
    equipped weapons, the optional shield, the mission kind and the
    difficulty scalar, with the catalogue rows used in scenarios. */
module Loadout {
  import opened Options

  datatype WeaponType = Projectile | Laser | Missile | Mine

  /** One equipped weapon. `count` is the loadout count: the number of
      barrels of a non-ammo weapon, the starting ammo of an ammo-based one. */
  datatype Weapon = Weapon(id: string, kind: WeaponType, damage: real, fireRate: real, isAmmoBased: bool, count: int)

  datatype ShieldSpec = ShieldSpec(capacity: real, regenRate: real)

  /** ATTACK and COMET are the two kinds the engine tells apart; every other
      mission kind behaves like ATTACK except for its kill quota. */
  datatype MissionType = Attack | Comet | OtherMission

  datatype Config = Config(weapons: seq<Weapon>, shield: Option<ShieldSpec>, mission: MissionType, difficulty: real)

  /** The keys that pull a weapon's trigger: space or 1 for guns and lasers,
      2 or x for missiles, 3 or m for mines. */
  function TriggerKeys(kind: WeaponType): (keys: set<string>)
    ensures |keys| == 2
  {
    match kind
    case Projectile => {" ", "1"}
    case Laser => {" ", "1"}
    case Missile => {"2", "x"}
    case Mine => {"3", "m"}
  }

  predicate Triggered(w: Weapon, held: set<string>)
  {
    exists k :: k in held && k in TriggerKeys(w.kind)
  }

  /** Guns and lasers share their trigger; missiles and mines each have their own. */
  lemma TriggersShared(a: WeaponType, b: WeaponType)
    ensures TriggerKeys(a) == TriggerKeys(b) <==> a == b || (a in {Projectile, Laser} && b in {Projectile, Laser})
    ensures TriggerKeys(a) != TriggerKeys(b) ==> TriggerKeys(a) !! TriggerKeys(b)
  {
  }

  /** Starting and maximum shield charge: the fitted shield's capacity, 0 without one. */
  function ShieldCapacity(cfg: Config): (cap: real)
    ensures cfg.shield.None? ==> cap == 0.0
    ensures cfg.shield.Some? ==> cap == cfg.shield.value.capacity
  {
    match cfg.shield
    case None => 0.0
    case Some(sh) => sh.capacity
  }

  /** Kills needed to win: 20 per difficulty point on ATTACK, 40 otherwise. */
  function TotalToKill(mission: MissionType, difficulty: real): (n: real)
    ensures mission == Attack ==> n == 20.0 * difficulty
    ensures mission != Attack ==> n == 40.0 * difficulty
    ensures difficulty > 0.0 ==> n > 0.0
  {
    if mission == Attack then 20.0 * difficulty else 40.0 * difficulty
  }

  /** The configuration every proof about the whole tick assumes: non-negative
      shield figures, weapon damage and starting ammo. */
  predicate WellFormed(cfg: Config)
  {
    && (cfg.shield.Some? ==> cfg.shield.value.capacity >= 0.0 && cfg.shield.value.regenRate >= 0.0)
    && (forall i :: 0 <= i < |cfg.weapons| ==> cfg.weapons[i].damage >= 0.0)
    && (forall i :: 0 <= i < |cfg.weapons| ==> cfg.weapons[i].isAmmoBased ==> cfg.weapons[i].count >= 0)
  }

  // Catalogue rows, armed with a loadout count.
  function AutoCannon(count: int): Weapon { Weapon("gun_basic", Projectile, 10.0, 6.0, false, count) }
  function RubyBeam(count: int): Weapon { Weapon("laser_red", Laser, 15.0, 10.0, false, count) }
  function StalkerMissile(count: int): Weapon { Weapon("missile_seeker", Missile, 35.0, 1.5, true, count) }
  function StaticMine(count: int): Weapon { Weapon("mine_rack", Mine, 120.0, 0.5, true, count) }
  const PlasmaSkin: ShieldSpec := ShieldSpec(100.0, 2.0)
  const AegisCore: ShieldSpec := ShieldSpec(500.0, 5.0)
}

=== FILE: mapview.dfy ===
/** The sector map's camera and orbit arithmetic: scroll-slider conversions,
    zoom buttons, the intro and focus ease-out animations, the orbit speed
    factor, the moon speed multiplier, and the mission pay-out. */
module MapView {
  import opened Geometry

  /** Camera offsets span [-ScrollRange, ScrollRange]; sliders span [0, 100]. */
  const ScrollRange: real := 1000.0

  /** Slider position of a camera offset. */
  function SliderOf(offset: real): real
  {
    ((offset + ScrollRange) / (ScrollRange * 2.0)) * 100.0
  }

  /** Camera offset of a slider position. */
  function OffsetOf(val: real): real
  {
    (val / 100.0) * (ScrollRange * 2.0) - ScrollRange
  }

  /** The two conversions are inverse to each other, and the offset range
      maps exactly onto the slider range, monotonically. */
  lemma SliderRoundTrip(x: real, v: real)
    ensures OffsetOf(SliderOf(x)) == x
    ensures SliderOf(OffsetOf(v)) == v
    ensures -ScrollRange <= x <= ScrollRange <==> 0.0 <= SliderOf(x) <= 100.0
    ensures 0.0 <= v <= 100.0 <==> -ScrollRange <= OffsetOf(v) <= ScrollRange
    ensures x <= OffsetOf(v) <==> SliderOf(x) <= v
  {
  }

  const MinZoom: real := 0.005
  const MaxZoom: real := 4.0

  /** The + button. */
  function ZoomIn(z: real): (r: real)
    ensures r <= MaxZoom && r <= z + 0.2
    ensures z + 0.2 <= MaxZoom ==> r == z + 0.2
    ensures z + 0.2 > MaxZoom ==> r == MaxZoom
  {
    Min(z + 0.2, MaxZoom)
  }

  /** The - button. */
  function ZoomOut(z: real): (r: real)
    ensures r >= MinZoom && r >= z - 0.2
    ensures z - 0.2 >= MinZoom ==> r == z - 0.2
    ensures z - 0.2 < MinZoom ==> r == MinZoom
  {
    Max(z - 0.2, MinZoom)
  }

  /** Both buttons keep a zoom in [0.005, 4] inside it. */
  lemma ZoomStaysInRange(z: real)
    requires MinZoom <= z <= MaxZoom
    ensures MinZoom <= ZoomIn(z) <= MaxZoom
    ensures MinZoom <= ZoomOut(z) <= MaxZoom
  {
  }

  /** Animation progress after `elapsed` ms of a `duration` ms animation, capped at 1. */
  function Progress(elapsed: real, duration: real): (p: real)
    requires duration > 0.0
    ensures p <= 1.0
    ensures elapsed >= 0.0 ==> p >= 0.0
    ensures elapsed >= duration ==> p == 1.0
  {
    Min(elapsed / duration, 1.0)
  }

  function Cube(x: real): real { x * x * x }

  /** `1 - (1 - p)^3` */
  function EaseOutCubic(p: real): (e: real)
    ensures p == 0.0 ==> e == 0.0
    ensures p == 1.0 ==> e == 1.0
  {
    1.0 - Cube(1.0 - p)
  }

  /** `1 - (1 - p)^4` */
  function EaseOutQuart(p: real): (e: real)
    ensures p == 0.0 ==> e == 0.0
    ensures p == 1.0 ==> e == 1.0
  {
    1.0 - (1.0 - p) * Cube(1.0 - p)
  }

  lemma NonNegativeProduct(a: real, b: real)
    requires a >= 0.0 && b >= 0.0
    ensures a * b >= 0.0
  {
  }

  /** A weight in [0, 1] scales an amount to somewhere between 0 and itself. */
  lemma WeightBounds(e: real, d: real)
    requires 0.0 <= e <= 1.0
    ensures d >= 0.0 ==> 0.0 <= e * d <= d
    ensures d <= 0.0 ==> d <= e * d <= 0.0
  {
    var f := 1.0 - e;
    assert f * d == d - e * d;
    if d >= 0.0 {
      NonNegativeProduct(e, d);
      NonNegativeProduct(f, d);
    } else {
      NonNegativeProduct(e, -d);
      NonNegativeProduct(f, -d);
    }
  }

  lemma CubeBounds(x: real)
    requires 0.0 <= x <= 1.0
    ensures 0.0 <= Cube(x) <= x
  {
    var sq := x * x;
    WeightBounds(x, x);
    WeightBounds(x, sq);
    assert Cube(x) == x * sq;
  }

  /** The cubic easing stays in [0, 1] on [0, 1] and never runs behind the linear ramp. */
  lemma CubicBounds(p: real)
    requires 0.0 <= p <= 1.0
    ensures p <= EaseOutCubic(p) <= 1.0
  {
    CubeBounds(1.0 - p);
  }

  /** So does the quartic easing. */
  lemma QuartBounds(p: real)
    requires 0.0 <= p <= 1.0
    ensures p <= EaseOutQuart(p) <= 1.0
  {
    var q := 1.0 - p;
    var c := Cube(q);
    CubeBounds(q);
    assert 0.0 <= c <= q;
    WeightBounds(q, c);
    var k := q * c;
    assert 0.0 <= k <= c;
    assert EaseOutQuart(p) == 1.0 - k;
    assert 1.0 - k >= 1.0 - c >= 1.0 - q == p;
  }

  /** The cubic easing is monotone: a later frame is never less zoomed in. */
  lemma EaseMonotone(p: real, p': real)
    requires 0.0 <= p <= p' <= 1.0
    ensures EaseOutCubic(p) <= EaseOutCubic(p')
  {
    var a := 1.0 - p';
    var b := 1.0 - p;
    assert 0.0 <= a <= b;
    assert a * a <= b * b by {
      assert a * a <= a * b;
      assert a * b <= b * b;
    }
    assert Cube(a) <= Cube(b) by {
      assert (a * a) * a <= (b * b) * a;
      assert (b * b) * a <= (b * b) * b;
    }
  }

  /** `start + e * (target - start)`: the eased value between two ends. */
  function Lerp(start: real, target: real, e: real): (r: real)
    ensures e == 0.0 ==> r == start
    ensures e == 1.0 ==> r == target
    ensures 0.0 <= e <= 1.0 ==> Min(start, target) <= r <= Max(start, target)
  {
    var d := target - start;
    if 0.0 <= e <= 1.0 then WeightBounds(e, d); start + e * d
    else start + e * d
  }

  /** A camera: zoom and offset. */
  datatype Camera = Camera(zoom: real, x: real, y: real)

  const IntroStartZoom: real := 0.0625
  const IntroTargetZoom: real := 0.15625
  const IntroDuration: real := 3000.0

  /** One frame of the intro zoom and whether another frame is scheduled. */
  function IntroFrame(elapsed: real): (r: (Camera, bool))
    requires elapsed >= 0.0
    ensures IntroStartZoom <= r.0.zoom <= IntroTargetZoom
    ensures 0.0 <= r.0.x <= 100.0 && 0.0 <= r.0.y <= 50.0
    ensures r.1 <==> elapsed < IntroDuration
    ensures elapsed == 0.0 ==> r.0 == Camera(IntroStartZoom, 100.0, 50.0)
    ensures elapsed >= IntroDuration ==> r.0 == Camera(IntroTargetZoom, 0.0, 0.0)
  {
    var p := Progress(elapsed, IntroDuration);
    var e := EaseOutCubic(p);
    CubicBounds(p);
    assert p < 1.0 <==> elapsed < IntroDuration by {
      if elapsed < IntroDuration {
        assert elapsed / IntroDuration < IntroDuration / IntroDuration;
      }
    }
    (Camera(Lerp(IntroStartZoom, IntroTargetZoom, e), 100.0 * (1.0 - e), 50.0 * (1.0 - e)), p < 1.0)
  }

  /** For a positive divisor, a quotient is at least c exactly when the dividend is at least c times it. */
  lemma QuotientAtLeast(a: real, d: real, c: real)
    requires d > 0.0
    ensures a / d >= c <==> a >= c * d
  {
    var q := a / d;
    assert q * d == a;
    if q >= c {
      assert q * d >= c * d;
    } else {
      assert q * d < c * d;
    }
  }

  /** The zoom that frames a body of the given size, never closer than 2.5
      (a zero size divides to infinity, which the cap absorbs). */
  function FocusZoom(size: real): (z: real)
    ensures z <= 2.5
    ensures size > 0.0 ==> z > 0.0
    ensures size >= 0.96 ==> z == 60.0 / (size * 25.0)
    ensures 0.0 < size <= 0.96 ==> z == 2.5
  {
    if size * 25.0 == 0.0 then 2.5
    else
      assert size > 0.0 ==> (60.0 / (size * 25.0) >= 2.5 <==> size <= 0.96) && 60.0 / (size * 25.0) > 0.0 by {
        if size > 0.0 {
          QuotientAtLeast(60.0, size * 25.0, 2.5);
        }
      }
      Min(2.5, 60.0 / (size * 25.0))
  }

  const FocusDuration: real := 1000.0

  /** The quartic-eased weight of the focus animation after `elapsed` ms. */
  function FocusWeight(elapsed: real): (e: real)
    requires elapsed >= 0.0
    ensures 0.0 <= e <= 1.0
    ensures elapsed >= FocusDuration ==> e == 1.0
    ensures elapsed == 0.0 ==> e == 0.0
  {
    var p := Progress(elapsed, FocusDuration);
    QuartBounds(p);
    EaseOutQuart(p)
  }

  /** One frame of the focus animation from camera `c` toward the body at
      (tx, ty) of the given size: the camera's offset heads for (-tx, -ty). */
  function FocusFrame(c: Camera, tx: real, ty: real, size: real, elapsed: real): (r: Camera)
    requires elapsed >= 0.0
    ensures elapsed >= FocusDuration ==> r == Camera(FocusZoom(size), -tx, -ty)
    ensures elapsed == 0.0 ==> r == c
    ensures Min(c.zoom, FocusZoom(size)) <= r.zoom <= Max(c.zoom, FocusZoom(size))
  {
    var e := FocusWeight(elapsed);
    Camera(Lerp(c.zoom, FocusZoom(size), e), Lerp(c.x, -tx, e), Lerp(c.y, -ty, e))
  }

  // ---- orbits ----

  function SeqMin(s: seq<real>): (m: real)
    requires |s| > 0
    ensures m in s
    ensures forall i :: 0 <= i < |s| ==> m <= s[i]
  {
    if |s| == 1 then s[0] else Min(s[0], SeqMin(s[1..]))
  }

  function SeqMax(s: seq<real>): (m: real)
    requires |s| > 0
    ensures m in s
    ensures forall i :: 0 <= i < |s| ==> s[i] <= m
  {
    if |s| == 1 then s[0] else Max(s[0], SeqMax(s[1..]))
  }

  datatype RadiusRange = RadiusRange(min: real, max: real)

  /** The smallest and largest orbit radius in the quadrant, or 1..1000 with no planets. */
  function RangeOf(radii: seq<real>): (rr: RadiusRange)
    ensures |radii| == 0 ==> rr == RadiusRange(1.0, 1000.0)
    ensures rr.min <= rr.max
    ensures forall i :: 0 <= i < |radii| ==> rr.min <= radii[i] <= rr.max
    ensures |radii| > 0 ==> rr.min in radii && rr.max in radii
  {
    if |radii| == 0 then RadiusRange(1.0, 1000.0) else RadiusRange(SeqMin(radii), SeqMax(radii))
  }

  /** How far inside the outermost orbit a radius lies, as a fraction of the span. */
  function DistFactor(rr: RadiusRange, r: real): real
  {
    if rr.max == rr.min then 1.0 else (rr.max - r) / (rr.max - rr.min)
  }

  /** Inner planets orbit up to half again as fast. */
  function SpeedMultiplier(rr: RadiusRange, r: real): real
  {
    1.0 + 0.5 * DistFactor(rr, r)
  }

  /** For a planet of the quadrant the factor is in [0, 1] and the multiplier
      in [1, 1.5]: 1.5 for the innermost orbit, 1 for the outermost when the
      radii differ, and a smaller radius never orbits slower. */
  lemma OrbitSpeedBounds(radii: seq<real>, i: int, j: int)
    requires 0 <= i < |radii| && 0 <= j < |radii|
    ensures var rr := RangeOf(radii);
      && 0.0 <= DistFactor(rr, radii[i]) <= 1.0
      && 1.0 <= SpeedMultiplier(rr, radii[i]) <= 1.5
      && (radii[i] == rr.min ==> SpeedMultiplier(rr, radii[i]) == 1.5)
      && (radii[i] == rr.max && rr.min != rr.max ==> SpeedMultiplier(rr, radii[i]) == 1.0)
      && (radii[i] <= radii[j] ==> SpeedMultiplier(rr, radii[j]) <= SpeedMultiplier(rr, radii[i]))
  {
    var rr := RangeOf(radii);
    if rr.max != rr.min {
      var span := rr.max - rr.min;
      FractionBounds(rr.max - radii[i], span);
      FractionBounds(rr.max - radii[j], span);
      if radii[i] <= radii[j] {
        FractionMonotone(rr.max - radii[j], rr.max - radii[i], span);
      }
    }
  }

  lemma FractionBounds(a: real, d: real)
    requires 0.0 <= a <= d && d > 0.0
    ensures 0.0 <= a / d <= 1.0
    ensures a == d ==> a / d == 1.0
    ensures a == 0.0 ==> a / d == 0.0
  {
    QuotientAtLeast(a, d, 0.0);
    assert a / d * d == a;
    if a / d > 1.0 {
      assert a / d * d > 1.0 * d;
    }
  }

  lemma FractionMonotone(a: real, b: real, d: real)
    requires a <= b && d > 0.0
    ensures a / d <= b / d
  {
  }

  /** Speed multiplier of a planet's moon by its index: the first three moons
      slow down to half, a fifth, and a standstill; any later moon keeps full speed. */
  function MoonSpeed(idx: int): (m: real)
    ensures 0.0 <= m <= 1.0
    ensures m == 1.0 <==> idx !in {0, 1, 2}
    ensures m == 0.0 <==> idx == 2
    ensures idx == 0 ==> m == 0.5
    ensures idx == 1 ==> m == 0.2
  {
    if idx == 0 then 0.5 else if idx == 1 then 0.2 else if idx == 2 then 0.0 else 1.0
  }

  /** Combat pay: 10000 credits for a won mission, 2500 for a lost one. */
  function Reward(success: bool): (c: int)
    ensures c > 0
    ensures success <==> c == 10000
    ensures !success <==> c == 2500
  {
    if success then 10000 else 2500
  }

  /** Credits after the host has handled each mission-end report in order. */
  function Settle(credits: int, reports: seq<bool>): (c: int)
    ensures c >= credits + 2500 * |reports|
    ensures c <= credits + 10000 * |reports|
    decreases |reports|
  {
    if |reports| == 0 then credits else Settle(credits + Reward(reports[0]), reports[1..])
  }

  /** Handling one more report adds exactly that report's reward. */
  lemma {:induction false} SettleAppend(credits: int, reports: seq<bool>, r: bool)
    ensures Settle(credits, reports + [r]) == Settle(credits, reports) + Reward(r)
    decreases |reports|
  {
    if |reports| > 0 {
      assert (reports + [r])[1..] == reports[1..] + [r];
      SettleAppend(credits + Reward(reports[0]), reports[1..], r);
    }
  }

  /** A tick that reports both outcomes pays both rewards. */
  lemma DoubleReportPaysTwice(credits: int)
    ensures Settle(credits, [true, false]) == credits + 12500
  {
    assert [true, false][1..] == [false];
    assert [false][1..] == [];
  }
}

=== FILE: motion.dfy ===
/** Player integration: thrust on held direction keys, drag, position step,
    and the clamp that keeps the ship inside the playfield below the HUD strip. */
module Motion {
  import opened Geometry
  import opened World

  const Accel: real := 0.55
  const Drag: real := 0.92

  predicate Held(held: set<string>, a: string, b: string) { a in held || b in held }

  /** The ship's legal area: 35 from each side, 60 from the top, 35 from the bottom. */
  predicate InField(s: State)
  {
    35.0 <= s.px <= GameWidth - 35.0 && 60.0 <= s.py <= GameHeight - 35.0
  }

  /** The velocity change the held keys ask for on one axis. */
  function Thrust(neg: bool, pos: bool): (dv: real)
    ensures neg && !pos ==> dv == -Accel
    ensures pos && !neg ==> dv == Accel
    ensures neg == pos ==> dv == 0.0
  {
    (if neg then -Accel else 0.0) + (if pos then Accel else 0.0)
  }

  /** One tick of player motion. */
  function Integrate(s: State, held: set<string>): (t: State)
    ensures t == s.(px := t.px, py := t.py, pvx := t.pvx, pvy := t.pvy)
    ensures t.pvx == (s.pvx + Thrust(Held(held, "a", "ArrowLeft"), Held(held, "d", "ArrowRight"))) * Drag
    ensures t.pvy == (s.pvy + Thrust(Held(held, "w", "ArrowUp"), Held(held, "s", "ArrowDown"))) * Drag
    ensures InField(t)
    ensures InField(s.(px := s.px + t.pvx, py := s.py + t.pvy)) ==> t.px == s.px + t.pvx && t.py == s.py + t.pvy
  {
    var pvy0 := if Held(held, "w", "ArrowUp") then s.pvy - Accel else s.pvy;
    var pvy1 := if Held(held, "s", "ArrowDown") then pvy0 + Accel else pvy0;
    var pvx0 := if Held(held, "a", "ArrowLeft") then s.pvx - Accel else s.pvx;
    var pvx1 := if Held(held, "d", "ArrowRight") then pvx0 + Accel else pvx0;
    var pvx := pvx1 * Drag;
    var pvy := pvy1 * Drag;
    s.(px := Clamp(s.px + pvx, 35.0, GameWidth - 35.0),
       py := Clamp(s.py + pvy, 60.0, GameHeight - 35.0),
       pvx := pvx, pvy := pvy)
  }

  /** Without input the ship coasts: its speed shrinks by the drag factor each tick. */
  lemma CoastingSlowsDown(s: State)
    ensures Abs(Integrate(s, {}).pvx) == Drag * Abs(s.pvx)
    ensures Abs(Integrate(s, {}).pvy) == Drag * Abs(s.pvy)
  {
  }
}

=== FILE: options.dfy ===
/** An optional value: a missing reference (no boss, no hit, no shot). */
module Options {
  datatype Option<+T> = None | Some(value: T)
}

=== FILE: pickups.dfy ===
/** The pickup pass: every power-up, last first, drifts down, is collected
    within 35 of the ship, and is dropped once collected or below the field. */
module Pickups {
  import opened Geometry
  import opened Entities
  import opened World

  /** Every ammo counter raised by n. */
  function Refill(ammo: map<string, int>, n: int): (r: map<string, int>)
    ensures r.Keys == ammo.Keys
    ensures forall id :: id in r ==> r[id] - ammo[id] == n
  {
    map id | id in ammo :: ammo[id] + n
  }

  /** The effect of collecting a power-up: a repair of 25 capped at 100 hull,
      20 more of every ammo, or the boss gift of 100 more of every ammo and 5000 points. */
  function Collect(s: State, kind: PickupKind): (t: State)
    ensures t == s.(hp := t.hp, ammo := t.ammo, score := t.score)
    ensures t.ammo.Keys == s.ammo.Keys
    ensures kind == HpPack ==> t.hp <= 100.0 && t.ammo == s.ammo && t.score == s.score
    ensures kind == HpPack && s.hp <= 75.0 ==> t.hp == s.hp + 25.0
    ensures kind == HpPack && s.hp >= 75.0 ==> t.hp == 100.0
    ensures kind == AmmoPack ==> t.hp == s.hp && t.score == s.score && forall id :: id in t.ammo ==> t.ammo[id] == s.ammo[id] + 20
    ensures kind == Gift ==> t.hp == s.hp && t.score == s.score + 5000 && forall id :: id in t.ammo ==> t.ammo[id] == s.ammo[id] + 100
  {
    match kind
    case HpPack => s.(hp := Min(100.0, s.hp + 25.0))
    case AmmoPack => s.(ammo := Refill(s.ammo, 20))
    case Gift => s.(ammo := Refill(s.ammo, 100), score := s.score + 5000)
  }

  predicate Collects(s: State, p: PowerUp)
  {
    Within(p.x - s.px, p.y - s.py, 35.0)
  }

  /** One power-up's turn, after it drifts: within reach of the ship it is
      collected, applying its effect once, and spent; otherwise it touches
      nothing else and is kept (in front of `s.powerups`) exactly when it is
      still on the field. */
  function StepPickup(p: PowerUp, s: State): (t: State)
    ensures var d := Drift(p);
      && (Collects(s, d) ==> t == Collect(s, p.kind))
      && (t.powerups == [d] + s.powerups <==> !Collects(s, d) && d.y <= GameHeight)
      && (t.powerups != [d] + s.powerups ==> t.powerups == s.powerups)
      && (!Collects(s, d) ==> t == s.(powerups := t.powerups))
  {
    var d := Drift(p);
    var s1 := if Collects(s, d) then Collect(s, p.kind) else s;
    if Collects(s, d) || d.y > GameHeight then s1 else s1.(powerups := [d] + s1.powerups)
  }

  function PickupPass(pending: seq<PowerUp>, s: State): (t: State)
    decreases |pending|
  {
    if |pending| == 0 then s
    else PickupPass(pending[..|pending| - 1], StepPickup(pending[|pending| - 1], s))
  }

  /** The pickup phase over the whole power-up list: power-ups only
      disappear, every one kept is a drifted original (each at most once),
      the ones kept are on the field and out of reach, the hull
      is only repaired up to 100, and the score only grows. */
  function PickupPhase(s: State): (t: State)
    ensures t == s.(hp := t.hp, ammo := t.ammo, score := t.score, powerups := t.powerups)
    ensures |t.powerups| <= |s.powerups| && Floating(t, t.powerups)
    ensures multiset(t.powerups) <= multiset(Drifted(s.powerups))
    ensures s.hp <= 100.0 ==> s.hp <= t.hp <= 100.0
    ensures t.score >= s.score
  {
    PickupPassKeeps(s.powerups, s.(powerups := []));
    PickupPassSurvivors(s.powerups, s.(powerups := []));
    PickupPass(s.powerups, s.(powerups := []))
  }

  predicate Floating(s: State, ps: seq<PowerUp>)
  {
    forall i :: 0 <= i < |ps| ==> ps[i].y <= GameHeight && !Collects(s, ps[i])
  }

  lemma StepPickupKeeps(p: PowerUp, s: State)
    ensures var t := StepPickup(p, s);
      && t == s.(hp := t.hp, ammo := t.ammo, score := t.score, powerups := t.powerups)
      && t.ammo.Keys == s.ammo.Keys
      && (s.hp <= 100.0 ==> s.hp <= t.hp <= 100.0)
      && (AmmoNonNegative(s.ammo) ==> AmmoNonNegative(t.ammo))
      && t.score >= s.score
      && (t.powerups == s.powerups || (t.powerups == [Drift(p)] + s.powerups && Drift(p).y <= GameHeight && !Collects(s, Drift(p))))
  {
  }

  /** Every power-up of `ps` after its drift, in order. */
  function Drifted(ps: seq<PowerUp>): (r: seq<PowerUp>)
    ensures |r| == |ps|
    decreases |ps|
  {
    if |ps| == 0 then [] else Drifted(ps[..|ps| - 1]) + [Drift(ps[|ps| - 1])]
  }

  /** The pass keeps no power-up but the ones it started with and the
      drifted pending ones, each at most once. */
  lemma {:induction false} PickupPassSurvivors(pending: seq<PowerUp>, s: State)
    ensures multiset(PickupPass(pending, s).powerups) <= multiset(s.powerups) + multiset(Drifted(pending))
    decreases |pending|
  {
    if |pending| > 0 {
      var p := pending[|pending| - 1];
      var s1 := StepPickup(p, s);
      var rest := pending[..|pending| - 1];
      PickupPassSurvivors(rest, s1);
      assert PickupPass(pending, s) == PickupPass(rest, s1);
      assert Drifted(pending) == Drifted(rest) + [Drift(p)];
      assert multiset(s1.powerups) <= multiset(s.powerups) + multiset{Drift(p)};
    }
  }

  /** The pass neither reads nor writes the bullets. */
  lemma {:induction false} PickupsIgnoreBullets(pending: seq<PowerUp>, s: State, s': State)
    requires s' == s.(bullets := s'.bullets)
    ensures PickupPass(pending, s') == PickupPass(pending, s).(bullets := s'.bullets)
    decreases |pending|
  {
    if |pending| > 0 {
      var p := pending[|pending| - 1];
      assert StepPickup(p, s') == StepPickup(p, s).(bullets := s'.bullets);
      PickupsIgnoreBullets(pending[..|pending| - 1], StepPickup(p, s), StepPickup(p, s'));
    }
  }

  /** The pass as a whole: hull stays at or below 100 when it started there,
      counters stay non-negative, at most the pending power-ups are kept and
      every kept one is on the field and out of reach. */
  lemma {:induction false} PickupPassKeeps(pending: seq<PowerUp>, s: State)
    ensures var t := PickupPass(pending, s);
      && t == s.(hp := t.hp, ammo := t.ammo, score := t.score, powerups := t.powerups)
      && t.ammo.Keys == s.ammo.Keys
      && (s.hp <= 100.0 ==> s.hp <= t.hp <= 100.0)
      && (AmmoNonNegative(s.ammo) ==> AmmoNonNegative(t.ammo))
      && t.score >= s.score
      && |t.powerups| <= |s.powerups| + |pending|
      && (Floating(s, s.powerups) ==> Floating(t, t.powerups))
    decreases |pending|
  {
    if |pending| > 0 {
      var s1 := StepPickup(pending[|pending| - 1], s);
      StepPickupKeeps(pending[|pending| - 1], s);
      PickupPassKeeps(pending[..|pending| - 1], s1);
      assert PickupPass(pending, s) == PickupPass(pending[..|pending| - 1], s1);
      if Floating(s, s.powerups) {
        assert Floating(s1, s1.powerups);
      }
    }
  }
}

=== FILE: projectiles.dfy ===
/** The projectile pass: every bullet, from the last to the first, moves,
    leaves the field, or resolves against at most one target: the boss box
    first, then the highest-index enemy box it is inside; a hostile shot
    against the player instead. */
module Projectiles {
  import opened Options
  import opened Geometry
  import opened Loadout
  import opened Entities
  import opened World
  import opened Shields

  predicate Hits(e: Enemy, x: real, y: real)
  {
    Inside(x, y, EnemyBounds(e))
  }

  /** The enemy a player bullet at (x, y) strikes: the last one whose box holds the point. */
  function LastHit(es: seq<Enemy>, x: real, y: real): (r: Option<nat>)
    ensures r.Some? ==> r.value < |es| && Hits(es[r.value], x, y)
    ensures r.Some? ==> forall k :: r.value < k < |es| ==> !Hits(es[k], x, y)
    ensures r.None? <==> forall k :: 0 <= k < |es| ==> !Hits(es[k], x, y)
  {
    if |es| == 0 then None
    else if Hits(es[|es| - 1], x, y) then Some(|es| - 1)
    else LastHit(es[..|es| - 1], x, y)
  }

  predicate HitsBoss(s: State, b: Bullet)
  {
    s.boss.Some? && Inside(b.x, b.y, BossBounds(s.boss.value))
  }

  /** The power-up a kill drops for the given draws, if any. */
  function Drop(e: Enemy, roll: DropRoll): (ps: seq<PowerUp>)
    ensures |ps| <= 1
    ensures |ps| == 1 <==> roll.chance > 0.85
    ensures |ps| == 1 ==> ps[0].x == e.x && ps[0].y == e.y && ps[0].vy == 1.5
    ensures |ps| == 1 ==> ps[0].kind != Gift && (ps[0].kind == HpPack <==> roll.kind > 0.5)
  {
    if roll.chance > 0.85 then [NewPowerUp(e.x, e.y, if roll.kind > 0.5 then HpPack else AmmoPack)] else []
  }

  /** A player bullet strikes the boss: the boss loses the bullet's damage;
      a boss at or below 0 drops a gift where it stands and ends the mission
      in success, as often as it is struck. */
  function StrikeBoss(s: State, b: Bullet): (t: State)
    requires s.boss.Some?
    ensures t.boss.Some? && t.boss.value == s.boss.value.(hp := s.boss.value.hp - b.damage)
    ensures t.boss.value.hp > 0.0 ==> t == s.(boss := t.boss)
    ensures t.boss.value.hp <= 0.0 ==>
      t == s.(boss := t.boss, gameOver := true, log := s.log + [MissionEnd(true)],
              powerups := s.powerups + [NewPowerUp(s.boss.value.x, s.boss.value.y, Gift)])
  {
    var boss := s.boss.value.(hp := s.boss.value.hp - b.damage);
    var s1 := s.(boss := Some(boss));
    if boss.hp <= 0.0 then TriggerGameOver(s1.(powerups := s1.powerups + [NewPowerUp(boss.x, boss.y, Gift)]), true)
    else s1
  }

  /** A player bullet strikes enemy j: it loses the bullet's damage; at or below
      0 it is removed, scoring 200 and one unit of mission progress, and the
      kill draws `drops(progress)` for a possible power-up. */
  function StrikeEnemy(s: State, j: nat, b: Bullet, drops: int -> DropRoll): (t: State)
    requires j < |s.enemies|
    ensures t == s.(enemies := t.enemies, score := t.score, progress := t.progress, powerups := t.powerups)
    ensures var left := s.enemies[j].hp - b.damage;
      && (left > 0.0 ==>
            && |t.enemies| == |s.enemies| && t.enemies[j] == s.enemies[j].(hp := left)
            && (forall i :: 0 <= i < |s.enemies| && i != j ==> t.enemies[i] == s.enemies[i])
            && t.score == s.score && t.progress == s.progress && t.powerups == s.powerups)
      && (left <= 0.0 ==>
            && |t.enemies| == |s.enemies| - 1
            && (forall i :: 0 <= i < |t.enemies| ==> t.enemies[i] == s.enemies[if i < j then i else i + 1])
            && t.score == s.score + 200 && t.progress == s.progress + 1
            && t.powerups == s.powerups + Drop(s.enemies[j].(hp := left), drops(s.progress)))
  {
    var e := s.enemies[j].(hp := s.enemies[j].hp - b.damage);
    if e.hp <= 0.0 then
      s.(enemies := s.enemies[..j] + s.enemies[j + 1..], score := s.score + 200,
         progress := s.progress + 1, powerups := s.powerups + Drop(e, drops(s.progress)))
    else s.(enemies := s.enemies[j := e])
  }

  /** Whether an in-field bullet meets something: a hostile shot the ship
      within 20, a player bullet the boss's box or the box of some enemy. */
  predicate Connects(s: State, b: Bullet)
  {
    if b.isEnemy then Within(b.x - s.px, b.y - s.py, 20.0)
    else HitsBoss(s, b) || exists k :: 0 <= k < |s.enemies| && Hits(s.enemies[k], b.x, b.y)
  }

  /** One already-moved bullet against the state. It survives, in front of
      `s.bullets` (which holds the survivors of the later bullets), exactly
      when it is on the field and meets nothing; otherwise it is spent. A
      hostile shot only ever touches the player, by its damage; a player
      bullet never touches the player and strikes one target: the boss when
      its box holds the bullet, else the last enemy whose box does. */
  function Resolve(b: Bullet, s: State, drops: int -> DropRoll): (t: State)
    ensures t.bullets == [b] + s.bullets <==> !OutOfField(b) && !Connects(s, b)
    ensures t.bullets != [b] + s.bullets ==> t.bullets == s.bullets
    ensures OutOfField(b) || !Connects(s, b) ==> t == s.(bullets := t.bullets)
    ensures b.isEnemy ==> t == s.(bullets := t.bullets, hp := t.hp, sh := t.sh)
    ensures b.isEnemy && !OutOfField(b) && Connects(s, b) ==> t == DamagePlayer(s, b.damage)
    ensures b.isEnemy && !OutOfField(b) && Connects(s, b) ==> t.hp + t.sh == s.hp + s.sh - b.damage
    ensures !b.isEnemy ==> t.hp == s.hp && t.sh == s.sh
    ensures !b.isEnemy && !OutOfField(b) && HitsBoss(s, b) ==>
      && t == StrikeBoss(s, b)
      && t.enemies == s.enemies && t.boss.Some? && t.boss.value.hp == s.boss.value.hp - b.damage
    ensures !b.isEnemy && !OutOfField(b) && HitsBoss(s, b) && s.boss.value.hp - b.damage <= 0.0 ==>
      t.gameOver && t.log == s.log + [MissionEnd(true)]
    ensures t.boss != s.boss ==> !b.isEnemy && !OutOfField(b) && HitsBoss(s, b)
    ensures !b.isEnemy && !OutOfField(b) && !HitsBoss(s, b) && Connects(s, b) ==>
      && t.boss == s.boss && LastHit(s.enemies, b.x, b.y).Some?
      && var j := LastHit(s.enemies, b.x, b.y).value;
         && t == StrikeEnemy(s, j, b, drops)
         && (t.progress == s.progress + 1 <==> s.enemies[j].hp - b.damage <= 0.0)
  {
    if OutOfField(b) then s
    else if !b.isEnemy then
      if HitsBoss(s, b) then StrikeBoss(s, b)
      else match LastHit(s.enemies, b.x, b.y)
        case Some(j) => StrikeEnemy(s, j, b, drops)
        case None => s.(bullets := [b] + s.bullets)
    else if Within(b.x - s.px, b.y - s.py, 20.0) then DamagePlayer(s, b.damage)
    else s.(bullets := [b] + s.bullets)
  }

  /** A strike on an enemy touches only the enemies, score, progress and
      power-ups: a kill removes exactly one enemy for one unit of progress and
      200 points, and the remaining bomber timers are left as they were. */
  lemma StrikeEnemyKeeps(s: State, j: nat, b: Bullet, drops: int -> DropRoll)
    requires j < |s.enemies|
    ensures var t := StrikeEnemy(s, j, b, drops);
      && t == s.(enemies := t.enemies, score := t.score, progress := t.progress, powerups := t.powerups)
      && t.score - s.score == 200 * (t.progress - s.progress)
      && s.progress <= t.progress <= s.progress + 1
      && |t.enemies| + t.progress == |s.enemies| + s.progress
      && (TimersInRange(s.enemies) ==> TimersInRange(t.enemies))
  {
    var t := StrikeEnemy(s, j, b, drops);
    var e := s.enemies[j].(hp := s.enemies[j].hp - b.damage);
    if e.hp <= 0.0 {
      forall i | 0 <= i < |t.enemies| ensures t.enemies[i] == s.enemies[if i < j then i else i + 1] { }
    } else {
      forall i | 0 <= i < |t.enemies| ensures t.enemies[i].fireTimer == s.enemies[i].fireTimer { }
    }
  }

  /** What every step of the pass keeps: the accounting of kills against score
      and enemy count, the untouched player ledger, and the invariant pieces. */
  lemma ResolveKeeps(b: Bullet, s: State, drops: int -> DropRoll)
    ensures var t := Resolve(b, s, drops);
      && t.px == s.px && t.py == s.py && t.pvx == s.pvx && t.pvy == s.pvy
      && t.ammo == s.ammo && t.lastFire == s.lastFire && t.lastEnemy == s.lastEnemy
      && t.maxSh == s.maxSh && t.totalToKill == s.totalToKill
      && t.score - s.score == 200 * (t.progress - s.progress)
      && s.progress <= t.progress <= s.progress + 1
      && |t.enemies| + t.progress == |s.enemies| + s.progress
      && (t.bullets == s.bullets || t.bullets == [b] + s.bullets)
      && (t.bullets != s.bullets ==> -100.0 <= b.y <= GameHeight + 100.0)
  {
    if !OutOfField(b) && !b.isEnemy && !HitsBoss(s, b) {
      match LastHit(s.enemies, b.x, b.y)
      case Some(j) => StrikeEnemyKeeps(s, j, b, drops);
      case None =>
    }
  }

  /** Every step keeps the bomber timers in range and the shield non-negative,
      and a harmless bullet never heals the player. */
  lemma ResolveSafe(b: Bullet, s: State, drops: int -> DropRoll)
    ensures var t := Resolve(b, s, drops);
      && (TimersInRange(s.enemies) ==> TimersInRange(t.enemies))
      && (s.sh >= 0.0 ==> t.sh >= 0.0)
      && (b.damage >= 0.0 ==> t.hp <= s.hp && t.sh <= s.sh)
  {
    if !OutOfField(b) && !b.isEnemy && !HitsBoss(s, b) {
      match LastHit(s.enemies, b.x, b.y)
      case Some(j) => StrikeEnemyKeeps(s, j, b, drops);
      case None =>
    }
  }

  /** What every step reports: it only appends successes, sets the flag
      exactly when it does, which needs the boss at or below zero, and
      changes the boss by its hit points alone. */
  lemma ResolveReports(b: Bullet, s: State, drops: int -> DropRoll)
    ensures var t := Resolve(b, s, drops);
      && |s.log| <= |t.log| && t.log[..|s.log|] == s.log && OnlySuccessAfter(t.log, |s.log|)
      && (t.gameOver <==> s.gameOver || |t.log| > |s.log|)
      && (t.gameOver ==> s.gameOver || (t.boss.Some? && t.boss.value.hp <= 0.0))
      && (t.boss.Some? <==> s.boss.Some?)
      && (t.boss.Some? ==> t.boss.value == s.boss.value.(hp := t.boss.value.hp))
      && (b.damage >= 0.0 && t.boss.Some? ==> t.boss.value.hp <= s.boss.value.hp)
  {
    if !OutOfField(b) && !b.isEnemy && !HitsBoss(s, b) {
      match LastHit(s.enemies, b.x, b.y)
      case Some(j) =>
      case None =>
    }
  }

  /** The pass over `pending` (the bullets not yet visited), last bullet first. */
  function BulletPass(pending: seq<Bullet>, s: State, drops: int -> DropRoll): (t: State)
    decreases |pending|
  {
    if |pending| == 0 then s
    else BulletPass(pending[..|pending| - 1], Resolve(Advance(pending[|pending| - 1]), s, drops), drops)
  }

  /** Every bullet of `bs` moved by one step, in order. */
  function Moved(bs: seq<Bullet>): (r: seq<Bullet>)
    ensures |r| == |bs|
    decreases |bs|
  {
    if |bs| == 0 then [] else Moved(bs[..|bs| - 1]) + [Advance(bs[|bs| - 1])]
  }

  /** The pass keeps no bullet but the ones it started with and the moved
      pending ones, each at most once. */
  lemma {:induction false} BulletPassSurvivors(pending: seq<Bullet>, s: State, drops: int -> DropRoll)
    ensures multiset(BulletPass(pending, s, drops).bullets) <= multiset(s.bullets) + multiset(Moved(pending))
    decreases |pending|
  {
    if |pending| > 0 {
      var b := Advance(pending[|pending| - 1]);
      var s1 := Resolve(b, s, drops);
      var rest := pending[..|pending| - 1];
      BulletPassSurvivors(rest, s1, drops);
      assert BulletPass(pending, s, drops) == BulletPass(rest, s1, drops);
      assert Moved(pending) == Moved(rest) + [b];
      assert multiset(s1.bullets) <= multiset(s.bullets) + multiset{b};
    }
  }

  predicate InFlight(bs: seq<Bullet>)
  {
    forall i :: 0 <= i < |bs| ==> -100.0 <= bs[i].y <= GameHeight + 100.0
  }

  /** The projectile phase over the whole bullet list: bullets only
      disappear, every survivor is one of the moved bullets (each kept at
      most once), and the survivors are on the field; each bullet kills at
      most one enemy, every kill removes one enemy and scores 200; with only
      harmless shots in flight the player is only ever damaged. */
  function ProjectilePhase(s: State, drops: int -> DropRoll): (t: State)
    ensures |t.bullets| <= |s.bullets| && InFlight(t.bullets)
    ensures multiset(t.bullets) <= multiset(Moved(s.bullets))
    ensures t.score - s.score == 200 * (t.progress - s.progress)
    ensures s.progress <= t.progress <= s.progress + |s.bullets|
    ensures |t.enemies| + t.progress == |s.enemies| + s.progress
    ensures ShotsHarmless(s.bullets) ==> ShotsHarmless(t.bullets) && t.hp <= s.hp && t.sh <= s.sh
  {
    BulletPassKeeps(s.bullets, s.(bullets := []), drops);
    BulletPassSurvivors(s.bullets, s.(bullets := []), drops);
    BulletPass(s.bullets, s.(bullets := []), drops)
  }

  /** The pass as a whole: bullets only disappear, survivors are in flight,
      each bullet kills at most one enemy, each kill scores 200 and removes one
      enemy, and the player is only ever damaged. */
  lemma {:induction false} BulletPassKeeps(pending: seq<Bullet>, s: State, drops: int -> DropRoll)
    ensures var t := BulletPass(pending, s, drops);
      && t.px == s.px && t.py == s.py && t.pvx == s.pvx && t.pvy == s.pvy
      && t.ammo == s.ammo && t.lastFire == s.lastFire && t.lastEnemy == s.lastEnemy
      && t.maxSh == s.maxSh && t.totalToKill == s.totalToKill
      && t.score - s.score == 200 * (t.progress - s.progress)
      && s.progress <= t.progress <= s.progress + |pending|
      && |t.enemies| + t.progress == |s.enemies| + s.progress
      && |t.bullets| <= |s.bullets| + |pending|
      && (InFlight(s.bullets) ==> InFlight(t.bullets))
      && (ShotsHarmless(pending) && ShotsHarmless(s.bullets) ==> ShotsHarmless(t.bullets))
      && (TimersInRange(s.enemies) ==> TimersInRange(t.enemies))
      && (s.sh >= 0.0 ==> t.sh >= 0.0)
      && (ShotsHarmless(pending) ==> t.hp <= s.hp && t.sh <= s.sh)
    decreases |pending|
  {
    if |pending| > 0 {
      var b := Advance(pending[|pending| - 1]);
      var s1 := Resolve(b, s, drops);
      var rest := pending[..|pending| - 1];
      ResolveKeeps(b, s, drops);
      ResolveSafe(b, s, drops);
      BulletPassKeeps(rest, s1, drops);
      assert BulletPass(rest, s1, drops) == BulletPass(pending, s, drops);
      if ShotsHarmless(pending) {
        assert pending[|pending| - 1].damage >= 0.0;
        assert ShotsHarmless(rest);
        if ShotsHarmless(s.bullets) {
          assert ShotsHarmless(s1.bullets);
        }
      }
      if InFlight(s.bullets) {
        assert InFlight(s1.bullets);
      }
    }
  }

  /** What the pass reports: successes only, appended to the log; the flag is
      set exactly when one is reported, and with harmless shots only a boss at
      or below zero reports one. */
  lemma {:induction false} BulletPassReports(pending: seq<Bullet>, s: State, drops: int -> DropRoll)
    ensures var t := BulletPass(pending, s, drops);
      && |s.log| <= |t.log| && t.log[..|s.log|] == s.log && OnlySuccessAfter(t.log, |s.log|)
      && (t.gameOver <==> s.gameOver || |t.log| > |s.log|)
      && (ShotsHarmless(pending) && t.gameOver ==> s.gameOver || (t.boss.Some? && t.boss.value.hp <= 0.0))
      && (t.boss.Some? <==> s.boss.Some?)
      && (t.boss.Some? ==> t.boss.value == s.boss.value.(hp := t.boss.value.hp))
      && (ShotsHarmless(pending) && t.boss.Some? ==> t.boss.value.hp <= s.boss.value.hp)
    decreases |pending|
  {
    if |pending| > 0 {
      var b := Advance(pending[|pending| - 1]);
      var s1 := Resolve(b, s, drops);
      var rest := pending[..|pending| - 1];
      ResolveReports(b, s, drops);
      BulletPassReports(rest, s1, drops);
      var t := BulletPass(rest, s1, drops);
      assert t == BulletPass(pending, s, drops);
      if ShotsHarmless(pending) {
        assert pending[|pending| - 1].damage >= 0.0;
        assert ShotsHarmless(rest);
      }
      assert t.log[..|s.log|] == t.log[..|s1.log|][..|s.log|];
    }
  }

  /** A pass that changes the boss and leaves it at or below zero has
      reported a success: the last hit that changed it was lethal, and the
      log is only appended to after that. */
  lemma {:induction false} BulletPassBossKill(pending: seq<Bullet>, s: State, drops: int -> DropRoll)
    requires s.boss.Some?
    ensures var t := BulletPass(pending, s, drops);
      t.boss.Some? && t.boss.value.hp <= 0.0 && t.boss.value.hp != s.boss.value.hp ==>
        exists i :: |s.log| <= i < |t.log| && t.log[i] == MissionEnd(true)
    decreases |pending|
  {
    if |pending| > 0 {
      var b := Advance(pending[|pending| - 1]);
      var s1 := Resolve(b, s, drops);
      var rest := pending[..|pending| - 1];
      var t := BulletPass(rest, s1, drops);
      assert t == BulletPass(pending, s, drops);
      ResolveReports(b, s, drops);
      BulletPassReports(rest, s1, drops);
      BulletPassBossKill(rest, s1, drops);
      if t.boss.Some? && t.boss.value.hp <= 0.0 && t.boss.value.hp != s.boss.value.hp {
        if t.boss.value.hp == s1.boss.value.hp {
          assert s1.log == s.log + [MissionEnd(true)];
          assert t.log[|s.log|] == t.log[..|s1.log|][|s.log|];
        } else {
          var i :| |s1.log| <= i < |t.log| && t.log[i] == MissionEnd(true);
        }
      }
    }
  }
}

=== FILE: scenarios.dfy ===
/** Concrete situations from the engine's behaviour, stated on the model:
    a shield breaking under a heavy hit, a missile trigger pulled on an
    empty rack, the final blow on the COMET boss, a quota met, and a tick
    that ends both ways at once. */
module Scenarios {
  import opened Options
  import opened Loadout
  import opened Entities
  import opened World
  import opened Shields
  import opened Firing
  import opened Projectiles
  import opened Engine
  import opened MapView

  /** An ATTACK sortie at difficulty 1: the starter cannon, an empty missile
      rack and the basic shield. */
  const Raid: Config := Config([AutoCannon(1), StalkerMissile(0)], Some(PlasmaSkin), Attack, 1.0)

  /** The COMET mission at difficulty 1 with the same loadout. */
  const Siege: Config := Raid.(mission := Comet)

  /** The raid's missile rack starts tracked and empty. */
  lemma RaidRackEmpty()
    ensures Init(Raid).ammo == map["missile_seeker" := 0]
  {
    assert Raid.weapons[..1] == [AutoCannon(1)];
    assert Raid.weapons[..1][..0] == [];
  }

  /** A 40-point shield hit for 55 breaks to 0 and the hull loses the other 15. */
  lemma ShieldBreaks()
    ensures var t := DamagePlayer(Init(Raid).(sh := 40.0), 55.0);
      t.sh == 0.0 && t.hp == 85.0
  {
  }

  /** Pressing 2 with the empty rack once the gate is open: the denial is
      reported, nothing is fired, and neither the counter nor the gate moves. */
  lemma EmptyRackDenied()
    ensures var s := Init(Raid);
      var t := FireWeapon(s, StalkerMissile(0), {"2"}, 5000.0);
      t.log == [Denied("missile_seeker")] && t.bullets == [] && t.ammo == s.ammo && t.lastFire == s.lastFire
  {
    RaidRackEmpty();
    assert "2" in TriggerKeys(Missile);
    assert GateOpen(5000.0, LastFire(Init(Raid), "missile_seeker"), 1.5) by {
      GateAsRate(5000.0, 0.0, 1.5);
    }
  }

  /** A 35-damage missile into a boss with 20 left: the boss ends at -15, a
      gift drops where it hovers, and the mission ends in success. */
  lemma FinalBlowOnBoss(drops: int -> DropRoll)
    ensures var s := Init(Siege).(boss := Some(NewBoss(1.0).(y := 100.0, hp := 20.0)));
      var t := Resolve(Bullet(300.0, 100.0, 0.0, -6.0, 35.0, Missile, false), s, drops);
      && t.boss == Some(NewBoss(1.0).(y := 100.0, hp := -15.0))
      && t.gameOver && t.log == [MissionEnd(true)]
      && t.powerups == [NewPowerUp(300.0, 100.0, Gift)]
  {
    var s := Init(Siege).(boss := Some(NewBoss(1.0).(y := 100.0, hp := 20.0)));
    assert HitsBoss(s, Bullet(300.0, 100.0, 0.0, -6.0, 35.0, Missile, false));
  }

  /** The twentieth kill of the raid ends it in success, and the frame loop
      leaves the finished record alone from then on. */
  lemma QuotaEndsRaid(inp: TickInput, keepShots: bool)
    requires ValidRolls(inp.spawn)
    ensures var t := EndChecks(Raid, Init(Raid).(progress := 20));
      && t.gameOver && t.log == [MissionEnd(true)]
      && Tick(Raid, t, inp, keepShots) == t
  {
    RaidRackEmpty();
  }

  /** The twentieth kill in the tick the hull gives out: both outcomes are
      reported, and the host pays both rewards. */
  lemma BothEndsPaid()
    ensures var t := EndChecks(Raid, Init(Raid).(progress := 20, hp := -5.0));
      && t.log == [MissionEnd(true), MissionEnd(false)]
      && Settle(0, [t.log[0].success, t.log[1].success]) == 12500
  {
    DoubleReportPaysTwice(0);
  }
}

=== FILE: shields.dfy ===
/** The player's damage model: shield first, overflow to the hull, and the
    capped per-tick shield regeneration. */
module Shields {
  import opened Options
  import opened Geometry
  import opened Loadout
  import opened World

  /** Damage to the player. A charged shield absorbs it; whatever drives the
      shield below zero comes off the hull and the shield rests at 0. An
      uncharged shield lets all of it through. The hull is never clamped. */
  function DamagePlayer(s: State, amount: real): (t: State)
    ensures t == s.(hp := t.hp, sh := t.sh)
    ensures t.sh + t.hp == s.sh + s.hp - amount
    ensures s.sh >= 0.0 ==> t.sh >= 0.0
    ensures s.sh > 0.0 ==> t.sh == Max(s.sh - amount, 0.0)
    ensures s.sh >= amount > 0.0 ==> t.hp == s.hp
    ensures s.sh <= 0.0 ==> t.sh == s.sh && t.hp == s.hp - amount
    ensures amount >= 0.0 ==> t.hp <= s.hp && t.sh <= s.sh
  {
    if s.sh > 0.0 then
      var sh := s.sh - amount;
      if sh < 0.0 then s.(hp := s.hp + sh, sh := 0.0) else s.(sh := sh)
    else
      s.(hp := s.hp - amount)
  }

  /** One tick of shield regeneration: a fitted shield below its capacity
      gains a sixtieth of its rate, never passing the capacity. */
  function Regen(shield: Option<ShieldSpec>, s: State): (t: State)
    ensures t == s.(sh := t.sh)
    ensures shield.None? || s.sh >= s.maxSh ==> t.sh == s.sh
    ensures shield.Some? && s.sh < s.maxSh ==> t.sh <= s.maxSh
    ensures shield.Some? && s.sh < s.maxSh && shield.value.regenRate >= 0.0 ==> t.sh >= s.sh
    ensures shield.Some? && s.sh < s.maxSh && s.sh + shield.value.regenRate / 60.0 <= s.maxSh ==> t.sh == s.sh + shield.value.regenRate / 60.0
    ensures shield.Some? && s.sh < s.maxSh && s.sh + shield.value.regenRate / 60.0 > s.maxSh ==> t.sh == s.maxSh
  {
    if shield.Some? && s.sh < s.maxSh then s.(sh := Min(s.maxSh, s.sh + shield.value.regenRate / 60.0)) else s
  }

  /** Damage then regeneration keep the charge in [0, capacity]. */
  lemma ChargeStaysInRange(shield: Option<ShieldSpec>, s: State, amount: real)
    requires 0.0 <= s.sh <= s.maxSh && amount >= 0.0
    requires shield.Some? ==> shield.value.regenRate >= 0.0
    ensures 0.0 <= Regen(shield, DamagePlayer(s, amount)).sh <= s.maxSh
  {
  }
}

=== FILE: world.dfy ===
/** The engine's mutable record, as one immutable value: player kinematics
    and vitals, the entity collections, the weapon ledger, the spawner clock,
    mission progress, the score and the log of events the engine emits to
    its host (fire denied for lack of ammo, mission end). */
module World {
  import opened Options
  import opened Entities

  datatype Event = Denied(weapon: string) | MissionEnd(success: bool)

  datatype State = State(
    px: real, py: real, pvx: real, pvy: real,
    bullets: seq<Bullet>, enemies: seq<Enemy>, powerups: seq<PowerUp>,
    lastFire: map<string, real>, ammo: map<string, int>,
    lastEnemy: real, gameOver: bool,
    hp: real, sh: real, maxSh: real,
    progress: int, totalToKill: real,
    boss: Option<Boss>,
    score: int,
    log: seq<Event>)

  /** What the host supplies for one tick: the held keys, the clock, whether
      the abort dialog is open, and the random and trigonometric inputs. */
  datatype TickInput = TickInput(
    held: set<string>, now: real, abortOpen: bool,
    spawn: SpawnRolls, drops: int -> DropRoll, sin: real -> real)

  /** The terminal callback: sets the flag and reports the outcome.
      Nothing stops it from being reached more than once in one tick. */
  function TriggerGameOver(s: State, success: bool): (t: State)
    ensures t.gameOver
    ensures t.log == s.log + [MissionEnd(success)]
    ensures t == s.(gameOver := true, log := t.log)
  {
    s.(gameOver := true, log := s.log + [MissionEnd(success)])
  }

  // Invariant pieces, stated once and used by every pass.

  predicate AmmoNonNegative(ammo: map<string, int>)
  {
    forall id :: id in ammo ==> ammo[id] >= 0
  }

  predicate ShotsHarmless(bs: seq<Bullet>)
  {
    forall i :: 0 <= i < |bs| ==> bs[i].damage >= 0.0
  }

  predicate TimersInRange(es: seq<Enemy>)
  {
    forall i :: 0 <= i < |es| ==> 0.0 <= es[i].fireTimer <= 120.0
  }

  /** Every event past `n` is a successful mission end. */
  predicate OnlySuccessAfter(log: seq<Event>, n: nat)
  {
    forall i :: n <= i < |log| ==> log[i] == MissionEnd(true)
  }
}
